=== FILE: README.md ===
# kajson: a Dafny model of the type-tagged JSON codec

kajson extends Python's `json` module so that arbitrary objects survive a
round trip through JSON text. The encoder's `default(obj)` turns an object
into a JSON object holding the object's content plus two tags,
`"__class__"` and `"__module__"`. The decoder's `universal_decoder` is
installed as the parser's `object_hook`. It sees every JSON object bottom-up,
strips the two tags, resolves the class and tries a fixed chain of
reconstruction strategies. The chain is: a registered decoding function,
the class's `__json_decode__` hook, pydantic `RootModel` / `BaseModel`
validation, the keyword constructor, a blank instance whose `__dict__` is
replaced, and finally the raw dict.

The model covers:

- the decoder (`register`, tag stripping, class resolution through loaded
  modules, the class registry and import, the strategy chain, the fallback
  flag, the bottom-up walk);
- the encoder's `register` and `default` contract (registered function,
  then `__json_encode__`, then `__dict__`, then "not serializable"; tag
  injection that keeps existing tags; the fallback flag) and the writer's
  walk;
- the date, time, datetime, timezone and timedelta codecs of `kajson.py`,
  including the import-time registration of encoders and decoders;
- the `ClassRegistry` contract;
- the `KajsonManager` singleton.

Modules:

| file | module | what |
|---|---|---|
| values.dfy | `Values` | Python values as a datatype (`Value`), `Result`/`Option`, and `Outcome` for foreign calls |
| dicts.dfy | `Dicts` | insertion-ordered dicts as entry lists: `in`, `get`, `pop`, `setdefault` |
| text.dfy | `Text` | fixed-width decimal formatting, `int(s)`, `str.split` |
| runtime.dfy | `Runtime` | what the codec asks of the interpreter: loaded and importable modules, class capabilities, warnings |
| class_registry.dfy | `ClassRegistry` | the name → class table |
| kajson_manager.dfy | `KajsonManager` | the process-wide manager holding the registry |
| json_decoder.dfy | `JsonDecoder` | `UniversalJSONDecoder` |
| json_encoder.dfy | `JsonEncoder` | `UniversalJSONEncoder.register` / `default` and the writer's walk |
| kajson_codecs.dfy | `Codecs` | the date/time codecs and Python's `date` / `time` constructors they call |
| builtins.dfy | `Builtins` | the encoder and decoder tables as `kajson.py` leaves them |
| round_trip.dfy | `RoundTrip` | encoder against decoder |

Everything foreign to the codec is an oracle, a function the model takes as
a parameter whose answer is either `Returns(v)` or `Raises(kind)`. The
oracles are:

- registered functions and the `__json_encode__` / `__json_decode__` hooks;
- pydantic's `model_validate`, the keyword constructor and blank construction;
- `getattr` on a module, `importlib.import_module` and the set of loaded modules;
- `issubclass`;
- the zone database behind `ZoneInfo(key)`.

The model follows each of them in the order the source calls them, with the
same exception kinds.

Values of `datetime.date`, `datetime.time` and `datetime.datetime` are
objects without a `__dict__`. Their fields are positional slots, and
`Codecs.AsDate` and its siblings read them back. Class identity is a name
and a module (`ClassId`).

## Model

| member | source | states |
|---|---|---|
| JsonDecoder.Register | kajson/json_decoder.py:63-82 | a non-type or a non-callable is rejected with an error (ValueError); otherwise the table maps exactly that type to the function, replacing an earlier one, and nothing else changes |
| JsonDecoder.StripTags | kajson/json_decoder.py:116-117 | the content no strategy sees either tag in; every other key stays present with the value it had; a node without tags is unchanged |
| JsonDecoder.ResolveClass | kajson/json_decoder.py:121-136 | a list or dict module tag fails the membership test with TypeError, and nothing else does; a loaded module wins and answers by `getattr`; otherwise, with no manager installed, resolution fails; a class name found in the registry wins whatever the module; on a registry miss the module is imported and answers by `getattr`, and a module that cannot be imported is ImportFailed; an import failure is only possible when the module is neither loaded nor importable |
| JsonDecoder.LemmaImportActsAsLoaded | kajson/json_decoder.py:121-136 | on a registry miss, importing the module resolves the class exactly as having it among the decoder's globals would; the result is ImportFailed exactly when the module cannot be imported |
| JsonDecoder.RegistryLookup | kajson/json_decoder.py:124 | the registry lookup fails exactly when no manager is installed, and otherwise is `get_class` on the manager's registry |
| JsonDecoder.InNamespace | kajson/json_decoder.py:123 | `getattr(module, class_name)` succeeds exactly when the name is bound in the module, and fails naming the module and the class name otherwise |
| JsonDecoder.LemmaResolveIgnoresFallback | kajson/json_decoder.py:128-136 | class resolution, and so an import failure, is the same whichever way the fallback flag is set |
| JsonDecoder.ConstructThenValidate | kajson/json_decoder.py:166-183 | succeeds exactly when `cls(**d)` returns and re-validating that instance raises nothing, returning that instance; a validation error in construction is the creation error |
| JsonDecoder.FromRootModel | kajson/json_decoder.py:162-183 | a RootModel is built with keyword construction and re-validated; every failure is one of the two root-model errors or propagates; success means construction returned the value and re-validation passed |
| JsonDecoder.FromBaseModel | kajson/json_decoder.py:185-209 | `model_validate(d)` wins when it returns; after a ValidationError the result is keyword construction then re-validation, with a construction failure as the keyword error and a failed re-validation as the validate error; any other exception from `model_validate` propagates; a result comes only from one of those two paths |
| JsonDecoder.LemmaBaseModelRetryIsRootPath | kajson/json_decoder.py:162-209 | after a failed `model_validate`, a BaseModel decodes exactly as a RootModel does: the same instance on success, the keyword error exactly where the root model has its creation error, and the validate error exactly when construction returned and re-validation raised a ValidationError |
| JsonDecoder.FromConstructors | kajson/json_decoder.py:211-227 | the keyword constructor's result, else a blank instance holding exactly the content as attributes, else the tag-free dict; nothing here fails |
| JsonDecoder.FromClass | kajson/json_decoder.py:162-227 | pydantic models never reach the generic constructors; a plain class always decodes |
| JsonDecoder.FromHook | kajson/json_decoder.py:150-160 | without a hook the class-shape strategies decide, with no warning; a hook that returns gives its object; a hook raising AttributeError counts as no hook; any other exception is an error naming the class and the exception, or, under the fallback flag, one warning and the class-shape strategies; at most one warning, none without the flag |
| JsonDecoder.Reconstruct | kajson/json_decoder.py:138-160 | a registered decoder that returns decides the result with no warning; one that raises is an error unless the fallback flag is on; at most two warnings, none without the flag; hook and decoder errors only occur with the flag off |
| JsonDecoder.LemmaReconstructIsChain | kajson/json_decoder.py:138-227 | reconstruction is the first decisive step of the fixed strategy list (registered decoder, hook, model, keyword constructor, blank instance), with the raw dict when every step passes |
| JsonDecoder.LemmaClassStepsChain | kajson/json_decoder.py:162-227 | the class-shape strategies alone, run as a chain, give the same result as the direct definition, with no warning |
| JsonDecoder.LemmaHookStepsChain | kajson/json_decoder.py:150-227 | the hook followed by the class-shape strategies, run as a chain, is the `__json_decode__` strategy |
| JsonDecoder.RunChain | kajson/json_decoder.py:93-110 | a chain of strategies that all pass gives the raw dict and no warning |
| JsonDecoder.LemmaFallbackSkipsFailingDecoder | kajson/json_decoder.py:139-148 | under the fallback flag a failing registered decoder costs exactly one warning and the result is that of a table without it |
| JsonDecoder.LemmaHookAttributeErrorIsNoHook | kajson/json_decoder.py:151-154 | a hook raising AttributeError behaves exactly like a class without a hook, and never raises |
| JsonDecoder.UniversalDecoder | kajson/json_decoder.py:93-227 | a node without `__class__` is returned as is; with `__class__` but no `__module__` it fails; otherwise resolution errors propagate and a resolved class is reconstructed from the tag-free content |
| JsonDecoder.LemmaLookupWithout | kajson/json_decoder.py:116-117 | popping `__class__` does not change what `__module__` maps to |
| JsonDecoder.DecodeTree | kajson/json_decoder.py:85-88 | scalars are left as they are; a decoded array keeps its length; without the fallback flag the walk emits no warning |
| JsonDecoder.LemmaDecodeUntagged | kajson/json_decoder.py:87-113 | a parsed tree containing no tagged object decodes to itself with no warning |
| JsonDecoder.LemmaDecodeItemsUntagged | kajson/json_decoder.py:87-113 | the same for the members of an array |
| JsonDecoder.LemmaDecodeEntriesUntagged | kajson/json_decoder.py:87-113 | the same for the members of an object |
| JsonDecoder.DecodeItems | kajson/json_decoder.py:87 | a decoded array has as many members as the parsed one |
| JsonDecoder.DecodeEntries | kajson/json_decoder.py:87 | a decoded object has as many members as the parsed one |
| JsonEncoder.Register | tests/unit/test_json_encoder.py:96-122 | a non-type or a non-callable is rejected; otherwise exactly that type maps to the function |
| JsonEncoder.Tag | tests/unit/test_json_encoder.py:256-272 | after tagging, `__class__` and `__module__` map to the values already present, else to the class's name and module; no other key changes; content that already carries both tags is untouched |
| JsonEncoder.FromAttributes | tests/unit/test_json_encoder.py:224-244 | the attribute dict is the content exactly when the object has a `__dict__`; otherwise the object is not serializable, naming its type |
| JsonEncoder.FromEncodeHook | tests/unit/test_json_encoder.py:186-222 | without a hook the attribute dict is used, with no warning; a hook that returns gives its dict as the content; a hook that raises is an error naming the class and the exception, or, under the fallback flag, one warning and the attribute dict |
| JsonEncoder.Content | tests/unit/test_json_encoder.py:129-222 | a registered function that returns decides the content; one that raises is an encoder error without the fallback flag; with no registered function the hook path decides; at most two warnings, none without the flag |
| JsonEncoder.Default | tests/unit/test_json_encoder.py:129-272 | `__class__` is the content's own tag if it has one and the object's class name otherwise, and `__module__` likewise the class's module; every other key maps as in the content; it fails exactly when the content fails, with the same error and the same warnings |
| JsonEncoder.LemmaFallbackSkipsFailingEncoder | tests/unit/test_json_encoder.py:164-184 | under the fallback flag a failing registered function costs exactly one warning and the result is that of a table without it |
| JsonEncoder.LemmaNothingApplies | tests/unit/test_json_encoder.py:237-254 | an object with no registered function, no hook and no `__dict__` is not serializable, naming its type |
| JsonEncoder.EncodeTree | tests/unit/test_json_encoder.py:274-283 | scalars are written as they are; an object is written as a JSON object with as many members as `default` gives it, and a failing `default` stops the write with its error and warnings; too deep a nesting of objects is an error; a written list keeps its length; without the fallback flag there is no warning |
| JsonEncoder.LemmaEncodeNative | tests/unit/test_json_encoder.py:124-127 | a value JSON represents natively is written as itself, untagged, with no warning |
| JsonEncoder.LemmaEncodeNativeItems | tests/unit/test_json_encoder.py:124-127 | the same for the members of a list |
| JsonEncoder.LemmaEncodeNativeEntries | tests/unit/test_json_encoder.py:124-127 | the same for the members of a dict |
| JsonEncoder.LemmaEncodeIsJson | tests/unit/test_json_encoder.py:124-146 | whatever the writer emits successfully is plain JSON: no object is left |
| JsonEncoder.LemmaEncodeItemsIsJson | tests/unit/test_json_encoder.py:124-146 | the same for the members of a list |
| JsonEncoder.LemmaEncodeEntriesIsJson | tests/unit/test_json_encoder.py:124-146 | the same for the members of a dict |
| JsonEncoder.EncodeItems | tests/unit/test_json_encoder.py:124-127 | a written list has as many members as the value |
| JsonEncoder.EncodeEntries | tests/unit/test_json_encoder.py:124-127 | a written dict has the same keys in the same order |
| Codecs.AsDate | kajson/kajson.py:114-126 | reading a date value back gives the date it was built from, and only date objects are read |
| Codecs.AsTime | kajson/kajson.py:160-179 | reading a time value back gives the time it was built from |
| Codecs.AsDateTime | kajson/kajson.py:134-152 | reading a datetime value back gives the datetime it was built from |
| Codecs.MakeDate | kajson/kajson.py:126 | `date(y, m, d)`: a date exactly when the fields are a valid calendar date in years 1 to 9999, OverflowError when a field does not fit a C int, ValueError otherwise |
| Codecs.MakeTime | kajson/kajson.py:179 | `time(h, m, s, us, tzinfo)`: a time exactly when the clock fields are in range and `tzinfo` is `None` or a zone; otherwise OverflowError, ValueError or TypeError in that order |
| Codecs.DateText | kajson/kajson.py:114-116 | `str(d)` is ten characters: three digit fields separated by `-` at positions 4 and 7 |
| Codecs.LemmaDateTextFields | kajson/kajson.py:114-116 | the digit fields of `str(d)` read back as the year, the month and the day |
| Codecs.ClockText | kajson/kajson.py:160-162 | `%H:%M:%S.%f` is fifteen characters: three two-digit fields separated by `:`, then `.` and six digits |
| Codecs.LemmaClockTextFields | kajson/kajson.py:160-162 | the digit fields of the clock text read back as the hour, minute, second and microsecond |
| Codecs.DateTimeText | kajson/kajson.py:134-137 | `%Y-%m-%d %H:%M:%S.%f` is 26 characters, with `-`, ` `, `:` and `.` where the format puts them |
| Codecs.LemmaOverlongYearIsValueError | kajson/kajson.py:122-126 | a year field with more digits than `int` accepts makes the date decoder raise ValueError, whatever follows it |
| Codecs.EncodeDate | kajson/kajson.py:114-116 | the single field `"date"` holds `YYYY-MM-DD`, ten characters |
| Codecs.DecodeDate | kajson/kajson.py:122-126 | a missing `"date"` is a KeyError, a non-string an AttributeError; a result is always a valid date; every other failure is a ValueError or an OverflowError |
| Codecs.LemmaDateRoundTrip | kajson/kajson.py:114-126 | decoding an encoded valid date gives the same date |
| Codecs.EncodeTime | kajson/kajson.py:160-162 | `"time"` holds `HH:MM:SS.ffffff` with six fractional digits and `"tzinfo"` holds the time's tzinfo |
| Codecs.DecodeTime | kajson/kajson.py:168-179 | a missing `"time"` is a KeyError, a non-string an AttributeError; a result is a valid time whose tzinfo is the content's `"tzinfo"` entry, unchanged |
| Codecs.LemmaTimeRoundTrip | kajson/kajson.py:160-179 | decoding an encoded valid time gives the same time, tzinfo included |
| Codecs.LemmaDecodeClock | kajson/kajson.py:171-179 | any `H:M:S.F` digit text decodes to the time whose fields are the digits' values |
| Codecs.ReadClock | kajson/kajson.py:171-177 | reading the clock text fails only with ValueError (a piece that is not an integer) or IndexError (a missing piece) |
| Codecs.ReadSeconds | kajson/kajson.py:175-177 | reading the seconds piece fails only with ValueError or IndexError |
| Codecs.LemmaReadClock | kajson/kajson.py:171-177 | the fields read from `H:M:S.F` digit text are the values of its four pieces |
| Codecs.LemmaShortFractionIsMicroseconds | kajson/kajson.py:175-177 | the fraction is read as a count of microseconds, so a one-digit fraction `.5` gives 5 microseconds, not half a second |
| Codecs.LemmaMissingFractionFails | kajson/kajson.py:175-177 | a time text without a `.` fraction fails with IndexError |
| Codecs.DateTimeFields | kajson/kajson.py:134-137 | `"datetime"` holds the 26-character text and `"tzinfo"` holds the zone's key, or `None` for a naive value |
| Codecs.EncodeDateTime | kajson/kajson.py:134-137 | the datetime fields come first, then the encoder's own tags `"datetime"` / `"datetime"` |
| Codecs.ParseDateTime | kajson/kajson.py:145 | a parse is always a valid naive datetime |
| Codecs.LemmaParseDateTimeText | kajson/kajson.py:137-145 | parsing the text a valid datetime is formatted as gives back that datetime without its zone |
| Codecs.DecodeDateTime | kajson/kajson.py:143-152 | a missing `"datetime"` is a KeyError, a non-string a TypeError, unparsable text a ValueError; for string text it succeeds exactly when the text parses, and the result is that parse; a zone is attached only when `"tzinfo"` is truthy and resolves, otherwise the result stays naive |
| Codecs.LemmaDateTimeRoundTrip | kajson/kajson.py:134-152 | decoding an encoded valid datetime gives it back, zone included, when the zone database knows its key, with or without the tags |
| Codecs.LemmaDecodeCanonical | kajson/kajson.py:143-152 | any content whose `"datetime"` and `"tzinfo"` entries are a datetime's text and zone key decodes to that datetime |
| Codecs.LemmaDecodeParsed | kajson/kajson.py:143-152 | on text that parses, the result is the parse, with the zone attached exactly when `tzinfo` is truthy and resolves to a zone |
| Codecs.EncodeTimezone | kajson/kajson.py:108-110 | `"zone"` holds the key, and the tags name `timezone` in module `zoneinfo` |
| Codecs.EncodeTimedelta | kajson/kajson.py:187-189 | the single field `"seconds"` holds the total duration in seconds |
| Builtins.InstallEncoders | kajson/kajson.py:119-192 | the four encoders are added for date, datetime, time and timedelta, and nothing else changes |
| Builtins.InstallDecoders | kajson/kajson.py:129-182 | decoders are added for date, datetime and time only, and nothing else changes |
| Builtins.LemmaTimezoneEncoderNotRegistered | kajson/kajson.py:107-110 | the timezone encoder is not installed in the encoder table |
| Builtins.LemmaTimedeltaUsesConstructor | kajson/kajson.py:192-193 | with only the shipped decoders, a timedelta node is rebuilt by the keyword constructor |
| Builtins.EncodeDateFn | kajson/kajson.py:114-116 | on a date the registered function returns `{"date": str(d)}`; exact-type dispatch only ever passes it dates, and the model's AttributeError answer covers only values that are not well-formed dates, which Python's `str(d)` never meets |
| Builtins.EncodeDateTimeFn | kajson/kajson.py:134-137 | the same for datetimes |
| Builtins.EncodeTimeFn | kajson/kajson.py:160-162 | the same for times |
| Builtins.EncodeTimedeltaFn | kajson/kajson.py:187-189 | the same for timedeltas |
| RoundTrip.LemmaTagAppends | tests/unit/test_json_encoder.py:224-235 | content without tags is tagged by appending `__class__` then `__module__` |
| RoundTrip.LemmaStripTag | kajson/json_decoder.py:116-117 | stripping the tags undoes tagging on content without tags |
| RoundTrip.LemmaTagLookup | kajson/json_decoder.py:116-117 | the decoder reads back the class name and module the encoder wrote |
| RoundTrip.LemmaDefaultRegistered | tests/unit/test_json_encoder.py:129-146 | a registered function's tag-free output is that output with the two tags appended |
| RoundTrip.LemmaEncodeObject | tests/unit/test_json_encoder.py:274-283 | the writer emits an object as the JSON object `default` returns for it |
| RoundTrip.LemmaDecodeNode | kajson/json_decoder.py:87 | a JSON object with plain untagged members reaches `universal_decoder` as it is |
| RoundTrip.LemmaDecodeTagged | kajson/json_decoder.py:112-136 | a tag-free dict tagged with a class that resolves back is reconstructed as that class from exactly the untagged dict |
| RoundTrip.LemmaAttributeDictRoundTrip | kajson/json_decoder.py:112-227 | an object encoded through its attribute dict comes back as a blank instance holding exactly those attributes, or as the attribute dict itself, with no warning |
| RoundTrip.LemmaAttributeTreeRoundTrip | kajson/json_decoder.py:87-227 | the same through the whole writer and the whole parser hook |
| RoundTrip.LemmaTaggedMembers | tests/unit/test_json_encoder.py:224-235 | tagging plain untagged content adds only plain untagged members |
| RoundTrip.LemmaDateRoundTrip | kajson/kajson.py:114-129 | a date written by the shipped encoder is read back as the same date by the shipped decoder once `datetime.date` resolves |
| RoundTrip.LemmaDefaultDate | kajson/kajson.py:114-119 | `default` on a date gives its encoding tagged `date` / `datetime` |
| RoundTrip.LemmaDateNodeMembers | kajson/kajson.py:114-116 | a written date node holds only strings |
| RoundTrip.LemmaDateNodeDecodes | kajson/kajson.py:122-129 | the hook on a written date node gives the date |
| RoundTrip.LemmaNaiveTimeRoundTrip | kajson/kajson.py:160-182 | a time without a zone written by the shipped encoder is read back as the same time |
| RoundTrip.LemmaDefaultTime | kajson/kajson.py:160-165 | `default` on a time gives its encoding tagged `time` / `datetime` |
| RoundTrip.LemmaTimeNodeMembers | kajson/kajson.py:160-162 | a written naive time node holds only strings and `null` |
| RoundTrip.LemmaTimeNodeDecodes | kajson/kajson.py:168-182 | the hook on a written time node gives the time |
| RoundTrip.LemmaDefaultDateTime | kajson/kajson.py:134-140 | `default` on a datetime keeps the tags its encoder wrote |
| RoundTrip.LemmaDateTimeRoundTrip | kajson/kajson.py:134-155 | a datetime written by the shipped encoder keeps the encoder's own tags and is read back, zone included, when `datetime.datetime` resolves and the zone database knows its key |
| RoundTrip.LemmaDateTimeIsTagged | kajson/kajson.py:134-137 | the datetime encoder's output is its tag-free fields with exactly the tags `default` would have added |
| RoundTrip.LemmaDateTimeNodeMembers | kajson/kajson.py:134-137 | a written datetime node holds only strings and `null` |
| RoundTrip.LemmaDateTimeNodeDecodes | kajson/kajson.py:143-155 | the hook on a written datetime node gives the datetime, zone included |
| RoundTrip.LemmaNoTagsIn | kajson/kajson.py:137 | the datetime fields carry no tag |
| RoundTrip.LemmaResolveDateByImport | kajson/json_decoder.py:121-136 | with a manager whose registry lacks `date`, `datetime.date` is found by importing `datetime` |
| RoundTrip.LemmaResolveNeedsManager | kajson/json_decoder.py:124 | without a manager, a class of a module not loaded cannot be resolved |
| RoundTrip.LemmaTimezoneTagsDoNotResolve | kajson/kajson.py:108-110 | the timezone encoder's tags ask for a class `timezone` in `zoneinfo`; with `zoneinfo` outside the decoder's globals and `timezone` not registered, the decoder imports `zoneinfo` and fails to find `timezone` in it |
| RoundTrip.LemmaHookRoundTrip | tests/unit/test_json_encoder.py:186-222 | `default` tags what `__json_encode__` returns, and a `__json_decode__` that inverts that content gives the object back from the tagged dict, with no warning |
| ClassRegistry.RegisterClass | tests/unit/test_class_registry.py:33-61 | the class is stored under the given name, or its own name without one (or with an empty one), whether or not the name was present; other entries are unchanged |
| ClassRegistry.RegisterClassesDict | tests/unit/test_class_registry.py:97-128 | every pair is registered, so on an empty registry the result is exactly the given dict; the names present before stay present |
| ClassRegistry.RegisterClasses | tests/unit/test_class_registry.py:130-183 | each class is stored under its own name; a name present before or taken by an earlier element keeps its class; the rest are added; an empty list changes nothing |
| ClassRegistry.UnregisterClass | tests/unit/test_class_registry.py:63-78 | removes the entry under the class's name and nothing else; an absent class is a not-found error naming it |
| ClassRegistry.UnregisterClassByName | tests/unit/test_class_registry.py:80-95 | removes the named entry and nothing else; an absent name is a not-found error naming it |
| ClassRegistry.GetClass | tests/unit/test_class_registry.py:185-195 | the stored class exactly when the name is present, none otherwise |
| ClassRegistry.GetRequiredClass | tests/unit/test_class_registry.py:197-209 | the stored class when present, a not-found error naming it otherwise |
| ClassRegistry.GetRequiredSubclass | tests/unit/test_class_registry.py:211-239 | succeeds exactly when the name is present and its class is a subclass of the base; a missing name is not-found, a class outside the base an inheritance error |
| ClassRegistry.GetRequiredBaseModel | tests/unit/test_class_registry.py:241-260 | succeeds exactly when the named class is a pydantic model; a registered non-model is an inheritance error |
| ClassRegistry.HasClass | tests/unit/test_class_registry.py:262-269 | true exactly when `get_class` finds the name, and exactly when `get_required_class` does not raise |
| ClassRegistry.LemmaRegisterThenHasClass | tests/unit/test_class_registry.py:262-269 | after registering a class under its own name `has_class` finds it, and every other name answers as before |
| ClassRegistry.HasSubclass | tests/unit/test_class_registry.py:271-295 | true exactly when the required-subclass lookup would succeed; a missing name is false, not an error |
| ClassRegistry.Setup | tests/unit/test_class_registry.py:14-20 | setting up keeps the registry as it is |
| ClassRegistry.Teardown | tests/unit/test_class_registry.py:14-31 | afterwards no name is registered |
| ClassRegistry.LemmaRequiredSubclassOfItself | tests/unit/test_class_registry.py:211-229 | a registered class is a required subclass of itself |
| ClassRegistry.LemmaRequiredSubclassUpward | tests/unit/test_class_registry.py:211-229 | a lookup that succeeds against a base succeeds, with the same class, against every superclass of it |
| ClassRegistry.LemmaRegisterThenUnregister | tests/unit/test_class_registry.py:63-73 | registering a class under its own name and unregistering it leaves the registry without that name and otherwise as before |
| KajsonManager.Construct | kajson/kajson_manager.py:16-18 | constructing installs a manager, holding the given registry or a fresh empty one, whose registry is then available |
| KajsonManager.GetInstance | kajson/kajson_manager.py:10-14 | fails exactly when no manager is installed, otherwise returns the installed one |
| KajsonManager.Teardown | kajson/kajson_manager.py:20-22 | afterwards both `get_instance` and `get_class_registry` fail |
| KajsonManager.GetClassRegistry | kajson/kajson_manager.py:24-26 | fails exactly when `get_instance` fails, otherwise returns the registry of the installed manager |
| KajsonManager.LemmaLastConstructionWins | kajson/kajson_manager.py:16-18 | two constructions in a row leave the second manager, whatever was installed before |
| KajsonManager.LemmaTeardownThenConstruct | kajson/kajson_manager.py:16-26 | after a teardown a new construction makes its registry available again |
| Dicts.SetDefault | tests/unit/test_json_encoder.py:256-272 | a present key keeps its value and the dict is unchanged; an absent key is appended last; no other key changes |
| Dicts.Without | kajson/json_decoder.py:116-117 | `pop` leaves no entry under the key, and every other key keeps its presence and its value |
| Dicts.LemmaWithoutAppend | kajson/json_decoder.py:116-117 | popping a key distributes over concatenation |
| Text.ParseInt | kajson/kajson.py:172-177 | `int(s)` on one to 4300 decimal digits, optionally signed, is their value, negated after `-`; it fails on anything else, including longer digit text |
| Text.LemmaTooManyDigits | kajson/kajson.py:172-177 | digit text longer than the default `int_max_str_digits` limit is refused, signed or not |
| Text.LemmaParseFixed | kajson/kajson.py:122-126 | `int` reads back a zero-padded field as the number it holds |
| Text.LemmaFixedValue | kajson/kajson.py:160-162 | a zero-padded field holds the number it was formatted from |
| Text.Split | kajson/kajson.py:171-175 | `split` gives at least one piece and no piece holds the separator |
| Text.LemmaJoinSplit | kajson/kajson.py:171-175 | joining the pieces with the separator gives the text back |
| Text.LemmaSplitCons | kajson/kajson.py:171-175 | a separator-free prefix followed by the separator is the first piece |
| Text.LemmaSplitNone | kajson/kajson.py:175 | separator-free text is a single piece |

## Left out

- The `dumps` / `dump` / `loads` / `load` wrappers and JSON text itself. The
  model starts from a parsed tree (`Value`) and ends at one.
- Python's `json` parser and writer are modelled only as the bottom-up hook
  walk (`JsonDecoder.DecodeTree`) and the writer's walk
  (`JsonEncoder.EncodeTree`). Circular-reference detection, NaN and
  non-string keys are not modelled.
- Real pydantic validation, `importlib.import_module`, `getattr`, `issubclass`
  and `_get_imported_modules`. They are oracles. The set of modules the
  decoder sees as loaded is a parameter.
- Logging and the text of messages. Warnings are recorded as a trace of
  kinds, and errors are kinds, not strings.
- The implementation of `UniversalJSONEncoder` and of `ClassRegistry`. Their
  behaviour is modelled from their unit tests.
- The encoder's derivation of `__module__` (the `__main__` file path, the
  `_get_type_module` patterns). The tag is the class's module.
- Tagging mutates the encoded object's `__dict__` in place. The model returns
  a new dict and does not model that side effect.
- Concurrency around the global tables.
- Other `tzinfo` classes than `ZoneInfo`. The `str(tzinfo)` used by the
  datetime encoder is modelled as the zone's key.
- `ClassRegistry.RegisterClass`: the log message and the
  `should_warn_if_already_registered` flag, which only selects a log line.
- `KajsonManager.Construct`: a registry object that Python considers falsy
  is replaced by a fresh one by `class_registry or ClassRegistry()`. The
  model treats every supplied registry as kept.
- `Text.ParseInt` is weaker than Python's `int(s)`. It does not model
  surrounding whitespace, `_` digit separators or non-ASCII digits: such
  text is rejected where Python would accept it. The digit limit is fixed
  at its default, 4300; a process that changes it with
  `sys.set_int_max_str_digits` is not modelled.
- `Codecs.ParseDateTime` accepts only the fixed-width text the encoder
  writes. `strptime` also accepts one-digit fields and shorter fractions;
  that text is rejected here.
- `Codecs.DecodeDateTime` inherits that restriction, so its ValueError
  covers more text than Python's does.
- `Codecs.DateTimeText`: `%Y` is taken to pad years below 1000 to four
  digits, as `str(date)` always does. CPython builds whose `strftime` hands
  `%Y` to a C library that does not pad (glibc) write year 999 as `999`.
- `Codecs.LemmaDateTimeRoundTrip`: on such builds `strptime`'s `%Y`, which
  reads four digits, rejects that text, so the round trip of datetimes in
  years 1 to 999 depends on `%Y` padding.
- `RoundTrip.LemmaDateTimeRoundTrip`: the same dependence on `%Y` padding
  for years 1 to 999.
- `Codecs.EncodeTimedelta`: `total_seconds()` is a float in Python. The
  model uses exact reals, so rounding is not modelled, and there is no
  timedelta decoder to round-trip against.
- `JsonEncoder.EncodeTree`: `fuel` bounds how many objects may be nested,
  standing for the interpreter's recursion limit. Running out is an error
  (`DepthExceeded`), not a RecursionError with its message.
- `ClassRegistry.RegisterClassesDict`: which class a name already present
  keeps is not fixed by the registry's tests, which only register into an
  empty registry. The model keeps the earlier class, as `register_classes`
  does; a registry that overwrites would differ on those names only.
- `JsonDecoder.ResolveClass`: a module attribute that is not a class. The
  namespaces hold classes only; in Python `getattr` would return any object
  and the later `issubclass` checks would raise TypeError.
- `JsonDecoder.ResolveClass`: a decoded object used as the module tag is
  treated as hashable. An instance of a class without `__hash__` would make
  the membership test raise TypeError, as lists and dicts do in the model.
- `JsonEncoder.FromEncodeHook`: an AttributeError raised inside
  `__json_encode__` is treated as a failure of the hook (the `hasattr`
  reading: the hook exists, so it is used). The decoder instead treats an
  AttributeError from `__json_decode__` as "no hook"; the encoder's
  implementation is not part of this model, so which reading it follows is
  not settled here.
- Duplicate keys in a JSON object. A `Dict` value may list a key twice,
  which no Python dict handed to the object hook can; Python's parser keeps
  the last value while `Dicts.Lookup` reads the first. The walk lemmas do not
  require distinct keys, and their statements are about the first entry.
- `JsonDecoder.ResolveClass`: a class-name tag that is not a string makes
  `getattr` raise TypeError in Python. The model reports it as the class
  not being found in the module.
- `JsonDecoder.RegistryLookup`: a class-name tag that is not a string is
  a registry miss. The registry's implementation is not part of this
  model; a dict-backed `get_class` would raise TypeError for a list or dict
  tag.
- `RoundTrip.LemmaNaiveTimeRoundTrip`: only times without a zone are
  round-tripped through the whole pipeline. A zone in `tzinfo` is itself
  encoded as an object, and no encoder for zones is installed.

=== FILE: builtins.dfy ===
/** The registrations kajson/kajson.py performs when it is imported: the
    date/time codecs installed in the encoder's and the decoder's tables. */
module Builtins {

  import opened Values
  import opened Runtime
  import opened Codecs
  import JsonEncoder
  import JsonDecoder

  /** `json_encode_date` as a registered function: it reads a date object. */
  function EncodeDateFn(v: Value): (r: Outcome<Entries>)
    ensures AsDate(v).Some? ==> r == Returns(EncodeDate(AsDate(v).value))
    ensures AsDate(v).None? ==> r == Raises(AttributeError)
  {
    match AsDate(v)
    case Some(d) => Returns(EncodeDate(d))
    case None => Raises(AttributeError)
  }

  function EncodeDateTimeFn(v: Value): (r: Outcome<Entries>)
    ensures AsDateTime(v).Some? ==> r == Returns(EncodeDateTime(AsDateTime(v).value))
    ensures AsDateTime(v).None? ==> r == Raises(AttributeError)
  {
    match AsDateTime(v)
    case Some(dt) => Returns(EncodeDateTime(dt))
    case None => Raises(AttributeError)
  }

  function EncodeTimeFn(v: Value): (r: Outcome<Entries>)
    ensures AsTime(v).Some? ==> r == Returns(EncodeTime(AsTime(v).value))
    ensures AsTime(v).None? ==> r == Raises(AttributeError)
  {
    match AsTime(v)
    case Some(t) => Returns(EncodeTime(t))
    case None => Raises(AttributeError)
  }

  function EncodeTimedeltaFn(v: Value): (r: Outcome<Entries>)
    ensures AsTimedelta(v).Some? ==> r == Returns(EncodeTimedelta(AsTimedelta(v).value))
    ensures AsTimedelta(v).None? ==> r == Raises(AttributeError)
  {
    match AsTimedelta(v)
    case Some(td) => Returns(EncodeTimedelta(td))
    case None => Raises(AttributeError)
  }

  /** The classes kajson.py registers an encoder for. */
  const EncodedClasses := {DateClass, DateTimeClass, TimeClass, TimedeltaClass}

  /** The classes kajson.py registers a decoder for: not `timedelta`, whose
      `{"seconds": ...}` content is left to the constructor strategy. */
  const DecodedClasses := {DateClass, DateTimeClass, TimeClass}

  /** The encoder table after the four `UniversalJSONEncoder.register` calls,
      in source order. */
  function InstallEncoders(table: JsonEncoder.EncoderTable): (r: JsonEncoder.EncoderTable)
    ensures r.Keys == table.Keys + EncodedClasses
    ensures r[DateClass] == EncodeDateFn && r[DateTimeClass] == EncodeDateTimeFn
    ensures r[TimeClass] == EncodeTimeFn && r[TimedeltaClass] == EncodeTimedeltaFn
    ensures forall c :: c in table && c !in EncodedClasses ==> r[c] == table[c]
  {
    var t1 := JsonEncoder.Register(table, AType(DateClass), Callable(EncodeDateFn)).value;
    var t2 := JsonEncoder.Register(t1, AType(DateTimeClass), Callable(EncodeDateTimeFn)).value;
    var t3 := JsonEncoder.Register(t2, AType(TimeClass), Callable(EncodeTimeFn)).value;
    JsonEncoder.Register(t3, AType(TimedeltaClass), Callable(EncodeTimedeltaFn)).value
  }

  /** The decoder table after the three `UniversalJSONDecoder.register`
      calls; `zones` is the zone database the datetime decoder consults. */
  function InstallDecoders(table: JsonDecoder.DecoderTable, zones: ZoneDb): (r: JsonDecoder.DecoderTable)
    ensures r.Keys == table.Keys + DecodedClasses
    ensures r[DateClass] == DecodeDate && r[TimeClass] == DecodeTime
    ensures forall c :: r[DateTimeClass](c) == DecodeDateTime(c, zones)
    ensures forall c :: c in table && c !in DecodedClasses ==> r[c] == table[c]
  {
    var t1 := JsonDecoder.Register(table, AType(DateClass), Callable(DecodeDate)).value;
    var t2 := JsonDecoder.Register(t1, AType(DateTimeClass), Callable(c => DecodeDateTime(c, zones))).value;
    JsonDecoder.Register(t2, AType(TimeClass), Callable(DecodeTime)).value
  }

  /** The timezone encoder exists but is not registered: a fresh encoder
      table has no entry for `ZoneInfo`. */
  lemma LemmaTimezoneEncoderNotRegistered()
    ensures ZoneInfoClass !in InstallEncoders(map[])
  {
  }

  /** A `timedelta` node is not handled by a registered decoder: with the
      shipped table, reconstruction goes straight to the hook and class
      strategies, where the keyword constructor `timedelta(seconds=...)`
      rebuilds it. */
  lemma LemmaTimedeltaUsesConstructor(d: JsonDecoder.Decoder, zones: ZoneDb, content: Entries)
    requires d.decoders == InstallDecoders(map[], zones)
    requires d.world.caps(TimedeltaClass).decodeHook.None? && d.world.caps(TimedeltaClass).kind.Plain?
    requires d.world.caps(TimedeltaClass).construct(content).Returns?
    ensures JsonDecoder.Reconstruct(d, TimedeltaClass, content)
            == Traced(Ok(d.world.caps(TimedeltaClass).construct(content).value), [])
  {
  }
}

=== FILE: class_registry.dfy ===
/** The class registry: a name -> class table consulted by the decoder when a
    tagged node's module is not among the loaded ones.

    `issubclass` is a parameter `isSub`; the lemmas that need it assume it
    is a preorder (reflexive and transitive), as Python's subclass relation is. */
module ClassRegistry {

  import opened Values

  type Registry = map<string, ClassId>

  /** The subclass test `issubclass(a, b)`. */
  type SubclassTest = (ClassId, ClassId) -> bool

  datatype RegistryError =
    | NotFound(name: string)                      // ClassRegistryNotFoundError
    | NotASubclass(cls: ClassId, base: ClassId)   // ClassRegistryInheritanceError

  /** pydantic's BaseModel. */
  const BaseModelClass := ClassId("BaseModel", "pydantic.main")

  ghost predicate Reflexive(isSub: SubclassTest) {
    forall c :: isSub(c, c)
  }

  ghost predicate Transitive(isSub: SubclassTest) {
    forall a, b, c :: isSub(a, b) && isSub(b, c) ==> isSub(a, c)
  }

  /** The key a class is stored under: the given name when it is a non-empty
      string (`name or cls.__name__`), the class's own name otherwise. */
  function KeyFor(cls: ClassId, name: Option<string>): string {
    if name.Some? && name.value != "" then name.value else cls.name
  }

  /** `register_class(cls, name, should_warn_if_already_registered)`. The
      flag only selects a log line; the class is stored in every case. */
  function RegisterClass(reg: Registry, cls: ClassId, name: Option<string>, warnIfPresent: bool): (r: Registry)
    ensures r.Keys == reg.Keys + {KeyFor(cls, name)}
    ensures GetClass(r, KeyFor(cls, name)) == Some(cls)
    ensures forall k :: k in reg && k != KeyFor(cls, name) ==> r[k] == reg[k]
    ensures name.None? ==> GetClass(r, cls.name) == Some(cls)
  {
    reg[KeyFor(cls, name) := cls]
  }

  /** `register_classes_dict(classes)`: every pair whose name is not yet
      present is added; present names keep their class. */
  function RegisterClassesDict(reg: Registry, classes: map<string, ClassId>): (r: Registry)
    ensures r.Keys == reg.Keys + classes.Keys
    ensures forall k :: k in reg ==> r[k] == reg[k]
    ensures forall k :: k in classes && k !in reg ==> r[k] == classes[k]
  {
    classes + reg
  }

  /** Index of the first class in `classes` whose name is `k`. */
  predicate FirstWithName(classes: seq<ClassId>, i: int, k: string) {
    0 <= i < |classes| && classes[i].name == k && forall j :: 0 <= j < i ==> classes[j].name != k
  }

  /** `register_classes(classes)`: each class goes under its own name, in
      order; a name already present (before the call or from an earlier
      element) is skipped and keeps its class. An empty list changes nothing. */
  method RegisterClasses(reg: Registry, classes: seq<ClassId>) returns (r: Registry)
    ensures forall k :: k in r <==> k in reg || exists i :: 0 <= i < |classes| && classes[i].name == k
    ensures forall k :: k in reg ==> r[k] == reg[k]
    ensures forall i :: 0 <= i < |classes| && classes[i].name !in reg && FirstWithName(classes, i, classes[i].name) ==>
              r[classes[i].name] == classes[i]
    ensures classes == [] ==> r == reg
  {
    r := reg;
    var n := 0;
    while n < |classes|
      invariant 0 <= n <= |classes|
      invariant forall k :: k in r <==> k in reg || exists i :: 0 <= i < n && classes[i].name == k
      invariant forall k :: k in reg ==> r[k] == reg[k]
      invariant forall i :: 0 <= i < n && classes[i].name !in reg && FirstWithName(classes, i, classes[i].name) ==>
                  r[classes[i].name] == classes[i]
    {
      var cls := classes[n];
      if cls.name !in r {
        r := r[cls.name := cls];
      }
      n := n + 1;
    }
  }

  /** `unregister_class(cls)`: removes the entry under the class's own name. */
  function UnregisterClass(reg: Registry, cls: ClassId): (r: Result<Registry, RegistryError>)
    ensures cls.name !in reg <==> r == Err(NotFound(cls.name))
    ensures r.Ok? ==> r.value.Keys == reg.Keys - {cls.name}
    ensures r.Ok? ==> forall k :: k in r.value ==> r.value[k] == reg[k]
  {
    UnregisterClassByName(reg, cls.name)
  }

  /** `unregister_class_by_name(name)`. */
  function UnregisterClassByName(reg: Registry, name: string): (r: Result<Registry, RegistryError>)
    ensures name !in reg <==> r == Err(NotFound(name))
    ensures r.Ok? ==> r.value.Keys == reg.Keys - {name} && !HasClass(r.value, name)
    ensures r.Ok? ==> forall k :: k in r.value ==> r.value[k] == reg[k]
  {
    if name in reg then Ok(reg - {name}) else Err(NotFound(name))
  }

  /** `get_class(name)`: the class, or none. */
  function GetClass(reg: Registry, name: string): (r: Option<ClassId>)
    ensures r.Some? <==> name in reg
    ensures r.Some? ==> reg[name] == r.value
  {
    if name in reg then Some(reg[name]) else None
  }

  /** `get_required_class(name)`: the class, or a not-found error naming it. */
  function GetRequiredClass(reg: Registry, name: string): (r: Result<ClassId, RegistryError>)
    ensures r.Ok? <==> GetClass(reg, name).Some?
    ensures r.Ok? ==> r.value == GetClass(reg, name).value
    ensures r.Err? ==> r.error == NotFound(name)
  {
    match GetClass(reg, name)
    case None => Err(NotFound(name))
    case Some(c) => Ok(c)
  }

  /** `get_required_subclass(name, base)`. */
  function GetRequiredSubclass(reg: Registry, name: string, base: ClassId, isSub: SubclassTest): (r: Result<ClassId, RegistryError>)
    ensures name !in reg ==> r == Err(NotFound(name))
    ensures name in reg && !isSub(reg[name], base) ==> r == Err(NotASubclass(reg[name], base))
    ensures r.Ok? <==> name in reg && isSub(reg[name], base)
    ensures r.Ok? ==> r.value == reg[name]
  {
    match GetRequiredClass(reg, name)
    case Err(e) => Err(e)
    case Ok(c) => if isSub(c, base) then Ok(c) else Err(NotASubclass(c, base))
  }

  /** `get_required_base_model(name)`: a registered pydantic model class. */
  function GetRequiredBaseModel(reg: Registry, name: string, isSub: SubclassTest): (r: Result<ClassId, RegistryError>)
    ensures r.Ok? <==> name in reg && isSub(reg[name], BaseModelClass)
    ensures name in reg && !isSub(reg[name], BaseModelClass) ==> r.Err? && r.error.NotASubclass?
  {
    GetRequiredSubclass(reg, name, BaseModelClass, isSub)
  }

  /** `has_class(name)`: never fails; true exactly when `get_class` finds
      the name and `get_required_class` does not raise. */
  function HasClass(reg: Registry, name: string): (r: bool)
    ensures r <==> GetClass(reg, name).Some?
    ensures r <==> GetRequiredClass(reg, name).Ok?
  {
    name in reg
  }

  /** A class registered under its own name is then found by `has_class`,
      and the answer for every other name is what it was. */
  lemma LemmaRegisterThenHasClass(reg: Registry, cls: ClassId, other: string)
    requires other != cls.name
    ensures HasClass(RegisterClass(reg, cls, None, false), cls.name)
    ensures HasClass(RegisterClass(reg, cls, None, false), other) == HasClass(reg, other)
  {
  }

  /** `has_subclass(name, base)`: never fails; a missing name is `false`. */
  function HasSubclass(reg: Registry, name: string, base: ClassId, isSub: SubclassTest): (r: bool)
    ensures r <==> GetRequiredSubclass(reg, name, base, isSub).Ok?
    ensures !HasClass(reg, name) ==> !r
  {
    name in reg && isSub(reg[name], base)
  }

  /** `setup()`: nothing to prepare. */
  function Setup(reg: Registry): (r: Registry)
    ensures r == reg
  {
    reg
  }

  /** `teardown()`: every entry is dropped. */
  function Teardown(reg: Registry): (r: Registry)
    ensures forall name :: !HasClass(r, name)
  {
    map[]
  }

  /** Under a reflexive `issubclass`, a registered class is always a
      subclass of itself. */
  lemma LemmaRequiredSubclassOfItself(reg: Registry, name: string, isSub: SubclassTest)
    requires Reflexive(isSub)
    requires name in reg
    ensures GetRequiredSubclass(reg, name, reg[name], isSub) == Ok(reg[name])
  {
  }

  /** Under a transitive `issubclass`, a lookup that succeeds against a base
      also succeeds against every superclass of that base. */
  lemma LemmaRequiredSubclassUpward(reg: Registry, name: string, base: ClassId, super: ClassId, isSub: SubclassTest)
    requires Transitive(isSub)
    requires isSub(base, super)
    requires GetRequiredSubclass(reg, name, base, isSub).Ok?
    ensures GetRequiredSubclass(reg, name, super, isSub) == GetRequiredSubclass(reg, name, base, isSub)
  {
  }

  /** Registering a class under its own name and unregistering it again
      leaves a registry without that name; the other entries are untouched. */
  lemma LemmaRegisterThenUnregister(reg: Registry, cls: ClassId, warnIfPresent: bool)
    ensures UnregisterClass(RegisterClass(reg, cls, None, warnIfPresent), cls) == Ok(reg - {cls.name})
  {
    assert RegisterClass(reg, cls, None, warnIfPresent) - {cls.name} == reg - {cls.name};
  }
}

=== FILE: dicts.dfy ===
/** Python dict operations on insertion-ordered entry lists. */
module Dicts {

  import opened Values

  /** `k in d`. */
  predicate HasKey<V>(d: seq<(string, V)>, k: string) {
    exists i :: 0 <= i < |d| && d[i].0 == k
  }

  /** `d.get(k)`: the value stored under `k`. */
  function Lookup<V>(d: seq<(string, V)>, k: string): (r: Option<V>)
    ensures r.Some? <==> HasKey(d, k)
    ensures r.Some? ==> exists i :: 0 <= i < |d| && d[i] == (k, r.value)
    ensures r.None? ==> forall i :: 0 <= i < |d| ==> d[i].0 != k
  {
    if d == [] then None
    else if d[0].0 == k then Some(d[0].1)
    else
      var r := Lookup(d[1..], k);
      assert r.Some? ==> d[1..][0 := d[1]] == d[1..];
      r
  }

  /** The dict after `d.pop(k)` (or unchanged when `k` is absent): every
      entry under `k` is dropped, the others keep their order. */
  function Without<V>(d: seq<(string, V)>, k: string): (r: seq<(string, V)>)
    ensures !HasKey(r, k)
    ensures |r| <= |d|
    ensures forall k' :: k' != k ==> (HasKey(r, k') <==> HasKey(d, k'))
    ensures forall k' :: k' != k ==> Lookup(r, k') == Lookup(d, k')
    ensures !HasKey(d, k) ==> r == d
  {
    if d == [] then []
    else
      var rest := Without(d[1..], k);
      if d[0].0 == k then
        assert forall k' :: HasKey(d, k') && k' != k ==> HasKey(d[1..], k') by {
          forall k' | HasKey(d, k') && k' != k ensures HasKey(d[1..], k') {
            var i :| 0 <= i < |d| && d[i].0 == k';
            assert d[1..][i - 1].0 == k';
          }
        }
        rest
      else
        var r := [d[0]] + rest;
        assert r[1..] == rest;
        assert forall k' :: HasKey(d, k') && k' != k ==> HasKey(r, k') by {
          forall k' | HasKey(d, k') && k' != k ensures HasKey(r, k') {
            var i :| 0 <= i < |d| && d[i].0 == k';
            if i == 0 { assert r[0].0 == k'; }
            else {
              assert HasKey(d[1..], k') by { assert d[1..][i - 1].0 == k'; }
              var j :| 0 <= j < |rest| && rest[j].0 == k';
              assert r[j + 1].0 == k';
            }
          }
        }
        assert forall k' :: HasKey(r, k') && k' != k ==> HasKey(d, k') by {
          forall k' | HasKey(r, k') && k' != k ensures HasKey(d, k') {
            var i :| 0 <= i < |r| && r[i].0 == k';
            if i == 0 { assert d[0].0 == k'; }
            else {
              assert HasKey(rest, k') by { assert rest[i - 1].0 == k'; }
              var j :| 0 <= j < |d[1..]| && d[1..][j].0 == k';
              assert d[j + 1].0 == k';
            }
          }
        }
        LemmaHasKeyTail(d, k);
        r
  }

  /** The dict after `if k not in d: d[k] = v`: an absent key is appended
      last, a present key keeps its value. */
  function SetDefault<V>(d: seq<(string, V)>, k: string, v: V): (r: seq<(string, V)>)
    ensures HasKey(r, k)
    ensures HasKey(d, k) ==> r == d
    ensures !HasKey(d, k) ==> r == d + [(k, v)] && Lookup(r, k) == Some(v)
    ensures forall k' :: k' != k ==> Lookup(r, k') == Lookup(d, k')
  {
    if HasKey(d, k) then d
    else
      var r := d + [(k, v)];
      assert r[|d|].0 == k;
      LemmaLookupAppendAbsent(d, k, v);
      LemmaLookupAppendOthers(d, k, v);
      r
  }

  /** Appending an entry under a fresh key makes it the value found for that key. */
  lemma {:induction false} LemmaLookupAppendAbsent<V>(d: seq<(string, V)>, k: string, v: V)
    requires !HasKey(d, k)
    ensures Lookup(d + [(k, v)], k) == Some(v)
  {
    if d != [] {
      LemmaHasKeyTail(d, k);
      LemmaLookupAppendAbsent(d[1..], k, v);
      assert (d + [(k, v)])[1..] == d[1..] + [(k, v)];
    }
  }

  /** The value found for a key is the one of its first entry. */
  lemma {:induction false} LemmaLookupFirst<V>(d: seq<(string, V)>, i: nat, k: string)
    requires i < |d| && d[i].0 == k
    requires forall j :: 0 <= j < i ==> d[j].0 != k
    ensures Lookup(d, k) == Some(d[i].1)
  {
    if i > 0 {
      LemmaLookupFirst(d[1..], i - 1, k);
    }
  }

  /** Appending an entry under another key does not change what a lookup finds. */
  lemma {:induction false} LemmaLookupAppendOther<V>(d: seq<(string, V)>, k: string, k': string, v: V)
    requires k != k'
    ensures Lookup(d + [(k', v)], k) == Lookup(d, k)
  {
    if d != [] {
      LemmaLookupAppendOther(d[1..], k, k', v);
      assert (d + [(k', v)])[1..] == d[1..] + [(k', v)];
    }
  }

  lemma LemmaLookupAppendOthers<V>(d: seq<(string, V)>, k: string, v: V)
    ensures forall k' :: k' != k ==> Lookup(d + [(k, v)], k') == Lookup(d, k')
  {
    forall k' | k' != k {
      LemmaLookupAppendOther(d, k', k, v);
    }
  }

  /** After appending an entry, a key is present iff it was before or it is the new one. */
  lemma LemmaHasKeyAppend<V>(d: seq<(string, V)>, k: string, k': string, v: V)
    ensures HasKey(d + [(k', v)], k) <==> HasKey(d, k) || k == k'
  {
    var r := d + [(k', v)];
    if HasKey(r, k) {
      var i :| 0 <= i < |r| && r[i].0 == k;
      if i < |d| { assert d[i].0 == k; }
    }
    if HasKey(d, k) {
      var i :| 0 <= i < |d| && d[i].0 == k;
      assert r[i].0 == k;
    }
    if k == k' { assert r[|d|].0 == k; }
  }

  /** Dropping a key distributes over concatenation. */
  lemma {:induction false} LemmaWithoutAppend<V>(a: seq<(string, V)>, b: seq<(string, V)>, k: string)
    ensures Without(a + b, k) == Without(a, k) + Without(b, k)
  {
    if a == [] {
      assert a + b == b;
    } else {
      var ab := a + b;
      assert ab[0] == a[0] && ab[1..] == a[1..] + b;
      LemmaWithoutAppend(a[1..], b, k);
      if a[0].0 != k {
        var x, y := Without(a[1..], k), Without(b, k);
        assert [a[0]] + (x + y) == ([a[0]] + x) + y;
      }
    }
  }

  /** A key is in a non-empty dict iff it is the first key or a key of the rest. */
  lemma LemmaHasKeyTail<V>(d: seq<(string, V)>, k: string)
    requires d != []
    ensures HasKey(d, k) <==> d[0].0 == k || HasKey(d[1..], k)
  {
    if HasKey(d, k) && d[0].0 != k {
      var i :| 0 <= i < |d| && d[i].0 == k;
      assert d[1..][i - 1].0 == k;
    }
    if HasKey(d[1..], k) {
      var j :| 0 <= j < |d[1..]| && d[1..][j].0 == k;
      assert d[j + 1].0 == k;
    }
  }
}

=== FILE: json_decoder.dfy ===
/** `UniversalJSONDecoder`: turns the tagged JSON objects of a parsed tree
    back into Python objects.

    `json.loads` builds the tree bottom-up and hands every JSON object, once
    its members are decoded, to the `object_hook` `universal_decoder`
    (`DecodeTree`). For one object (`UniversalDecoder`) the hook strips the
    two tags, resolves the class (`ResolveClass`) and tries the
    reconstruction strategies in order (`Reconstruct`). */
module JsonDecoder {

  import opened Values
  import opened Dicts
  import opened Runtime
  import ClassRegistry
  import KajsonManager

  type Entries = seq<(string, Value)>

  /** A registered decoding function: the tag-free dict to an object. */
  type DecodeFn = Entries -> Outcome<Value>

  /** `UniversalJSONDecoder._decoders`, keyed by exact class. */
  type DecoderTable = map<ClassId, DecodeFn>

  /** `IS_DECODER_FALLBACK_ENABLED` as shipped. */
  const DefaultFallback := false

  datatype DecodeError =
    | MissingModuleTag                                        // KeyError from popping "__module__"
    | UnhashableModuleTag                                     // TypeError from `module_name in all_mods`
    | ManagerNotInitialized                                   // RuntimeError from the registry accessor
    | ImportFailed(moduleTag: Value)                          // importing the module raised
    | ClassNotInModule(moduleName: string, className: Value)  // getattr(module, name) failed
    | DecodingFunctionFailed(cls: ClassId, cause: ExcKind)    // the registered decoder raised
    | DecodeHookFailed(cls: ClassId, cause: ExcKind)          // __json_decode__ raised
    | RootModelCreateFailed(cls: ClassId)                     // cls(**d) failed validation
    | RootModelValidateFailed(cls: ClassId)                   // post-validation failed
    | ModelKwargsFailed(cls: ClassId)                         // cls(**d) failed validation
    | ModelValidateFailed(cls: ClassId)                       // post-validation failed
    | Uncaught(cause: ExcKind)                                // a pydantic call raised something else

  /** The errors raised as `KajsonDecoderError`; the others propagate as the
      underlying Python exception. */
  predicate IsKajsonDecoderError(e: DecodeError) {
    !(e.MissingModuleTag? || e.UnhashableModuleTag? || e.ManagerNotInitialized? || e.ClassNotInModule? || e.Uncaught?)
  }

  /** Everything one decode depends on. */
  datatype Decoder = Decoder(
    world: World,
    manager: KajsonManager.Instance,
    decoders: DecoderTable,
    fallback: bool
  )

  /** `UniversalJSONDecoder.register(obj_type, decoding_function)`. */
  function Register(table: DecoderTable, objType: TypeArg, fn: FnArg<DecodeFn>): (r: Result<DecoderTable, RegisterError>)
    ensures r.Ok? <==> objType.AType? && fn.Callable?
    ensures objType.NotAType? ==> r == Err(ExpectedType)
    ensures objType.AType? && fn.NotCallable? ==> r == Err(ExpectedFunction)
    ensures r.Ok? ==> r.value == table[objType.cls := fn.fn]
  {
    RegisterIn(table, objType, fn)
  }

  /** The dict every strategy sees: the node without its two tags. */
  function StripTags(node: Entries): (r: Entries)
    ensures !HasKey(r, ClassKey) && !HasKey(r, ModuleKey)
    ensures forall k :: k != ClassKey && k != ModuleKey ==> (HasKey(r, k) <==> HasKey(node, k))
    ensures forall k :: k != ClassKey && k != ModuleKey ==> Lookup(r, k) == Lookup(node, k)
    ensures !HasKey(node, ClassKey) && !HasKey(node, ModuleKey) ==> r == node
  {
    Without(Without(node, ClassKey), ModuleKey)
  }

  /** `getattr(module, class_name)`. */
  function InNamespace(ns: Namespace, moduleName: string, className: Value): (r: Result<ClassId, DecodeError>)
    ensures r.Ok? <==> className.Str? && className.s in ns
    ensures r.Ok? ==> r.value == ns[className.s]
    ensures r.Err? ==> r.error == ClassNotInModule(moduleName, className)
  {
    if className.Str? && className.s in ns then Ok(ns[className.s])
    else Err(ClassNotInModule(moduleName, className))
  }

  /** `KajsonManager.get_class_registry().get_class(name=class_name)`. */
  function RegistryLookup(manager: KajsonManager.Instance, className: Value): (r: Result<Option<ClassId>, DecodeError>)
    ensures manager.None? <==> r == Err(ManagerNotInitialized)
    ensures manager.Some? && className.Str? ==>
              r == Ok(ClassRegistry.GetClass(manager.value.classRegistry, className.s))
    ensures manager.Some? && !className.Str? ==> r == Ok(None)
  {
    match KajsonManager.GetClassRegistry(manager)
    case Err(_) => Err(ManagerNotInitialized)
    case Ok(reg) => if className.Str? then Ok(ClassRegistry.GetClass(reg, className.s)) else Ok(None)
  }

  /** A tag `module_name in all_mods` cannot hash: a list or a dict (what
      the hook leaves of an untagged JSON array or object). */
  predicate Unhashable(v: Value) {
    v.List? || v.Dict?
  }

  /** Class resolution: an unhashable module tag raises TypeError at the
      membership test; a loaded module wins and the registry is not
      consulted; otherwise the registry is asked by class name alone, the
      module being ignored; only when both miss is the module imported, and
      a failed import is an error whatever the fallback flag says. */
  function ResolveClass(d: Decoder, className: Value, moduleName: Value): (r: Result<ClassId, DecodeError>)
    ensures Unhashable(moduleName) <==> r == Err(UnhashableModuleTag)
    ensures moduleName.Str? && moduleName.s in d.world.loaded ==>
              r == InNamespace(d.world.loaded[moduleName.s], moduleName.s, className)
    ensures !Unhashable(moduleName) && !(moduleName.Str? && moduleName.s in d.world.loaded) ==>
              (d.manager.None? ==> r == Err(ManagerNotInitialized))
    ensures !Unhashable(moduleName) && !(moduleName.Str? && moduleName.s in d.world.loaded) && d.manager.Some?
              && className.Str? && className.s in d.manager.value.classRegistry ==>
              r == Ok(d.manager.value.classRegistry[className.s])
    ensures !Unhashable(moduleName) && !(moduleName.Str? && moduleName.s in d.world.loaded)
              && RegistryLookup(d.manager, className) == Ok(None) ==>
              r == (if moduleName.Str? && moduleName.s in d.world.importable
                    then InNamespace(d.world.importable[moduleName.s], moduleName.s, className)
                    else Err(ImportFailed(moduleName)))
    ensures r.Err? && r.error.ImportFailed? ==>
              && !(moduleName.Str? && moduleName.s in d.world.loaded)
              && !(moduleName.Str? && moduleName.s in d.world.importable)
  {
    if Unhashable(moduleName) then
      Err(UnhashableModuleTag)
    else if moduleName.Str? && moduleName.s in d.world.loaded then
      InNamespace(d.world.loaded[moduleName.s], moduleName.s, className)
    else
      match RegistryLookup(d.manager, className)
      case Err(e) => Err(e)
      case Ok(Some(cls)) => Ok(cls)
      case Ok(None) =>
        if moduleName.Str? && moduleName.s in d.world.importable then
          InNamespace(d.world.importable[moduleName.s], moduleName.s, className)
        else
          Err(ImportFailed(moduleName))
  }

  /** Importing is as good as having the module loaded: on a registry miss,
      resolution through `import_module` gives exactly what it would give if
      the imported module were among the decoder's globals; and with the
      module neither loaded nor importable it is ImportFailed, whatever the
      class name. */
  lemma LemmaImportActsAsLoaded(d: Decoder, className: Value, moduleName: string)
    requires moduleName !in d.world.loaded
    requires RegistryLookup(d.manager, className) == Ok(None)
    ensures moduleName in d.world.importable ==>
              ResolveClass(d, className, Str(moduleName))
              == ResolveClass(d.(world := d.world.(loaded := d.world.loaded[moduleName := d.world.importable[moduleName]])),
                              className, Str(moduleName))
    ensures moduleName !in d.world.importable <==> ResolveClass(d, className, Str(moduleName)) == Err(ImportFailed(Str(moduleName)))
  {
  }

  /** Construct with `cls(**content)`, then re-validate the instance: the
      shared tail of the RootModel and BaseModel strategies. Validation
      failures become the given decoder errors, any other exception
      propagates. */
  function ConstructThenValidate(caps: ClassCaps, content: Entries, createFailed: DecodeError, validateFailed: DecodeError): (r: Result<Value, DecodeError>)
    ensures r.Ok? <==> caps.construct(content).Returns? && caps.revalidate(caps.construct(content).value).None?
    ensures r.Ok? ==> r.value == caps.construct(content).value
    ensures caps.construct(content) == Raises(ValidationError) ==> r == Err(createFailed)
  {
    match caps.construct(content)
    case Raises(ValidationError) => Err(createFailed)
    case Raises(e) => Err(Uncaught(e))
    case Returns(obj) =>
      match caps.revalidate(obj)
      case None => Ok(obj)
      case Some(ValidationError) => Err(validateFailed)
      case Some(e) => Err(Uncaught(e))
  }

  /** The RootModel strategy: the content is passed as keyword arguments
      (not to `model_validate`, which would wrap the root twice). */
  function FromRootModel(caps: ClassCaps, cls: ClassId, content: Entries): (r: Result<Value, DecodeError>)
    ensures r.Err? ==> r.error in {RootModelCreateFailed(cls), RootModelValidateFailed(cls)} || r.error.Uncaught?
    ensures r.Ok? ==> caps.construct(content) == Returns(r.value) && caps.revalidate(r.value).None?
  {
    ConstructThenValidate(caps, content, RootModelCreateFailed(cls), RootModelValidateFailed(cls))
  }

  /** The BaseModel strategy: `model_validate(content)`; when that fails
      validation, keyword construction followed by re-validation. */
  function FromBaseModel(caps: ClassCaps, cls: ClassId, content: Entries): (r: Result<Value, DecodeError>)
    ensures caps.validate(content).Returns? ==> r == Ok(caps.validate(content).value)
    ensures r.Err? ==> r.error in {ModelKwargsFailed(cls), ModelValidateFailed(cls)} || r.error.Uncaught?
    ensures r.Ok? ==> caps.validate(content) == Returns(r.value)
                      || (caps.validate(content) == Raises(ValidationError) && caps.construct(content) == Returns(r.value))
    ensures caps.validate(content) == Raises(ValidationError) ==>
              r == ConstructThenValidate(caps, content, ModelKwargsFailed(cls), ModelValidateFailed(cls))
    ensures caps.validate(content).Raises? && caps.validate(content).exc != ValidationError ==>
              r == Err(Uncaught(caps.validate(content).exc))
  {
    match caps.validate(content)
    case Returns(obj) => Ok(obj)
    case Raises(ValidationError) => ConstructThenValidate(caps, content, ModelKwargsFailed(cls), ModelValidateFailed(cls))
    case Raises(e) => Err(Uncaught(e))
  }

  /** After a failed `model_validate`, a BaseModel is decoded exactly as a
      RootModel is: the same keyword construction and re-validation give the
      same instance, and each of the two failures lands on the matching
      model error. */
  lemma LemmaBaseModelRetryIsRootPath(caps: ClassCaps, cls: ClassId, content: Entries)
    requires caps.validate(content) == Raises(ValidationError)
    ensures FromBaseModel(caps, cls, content).Ok? <==> FromRootModel(caps, cls, content).Ok?
    ensures FromBaseModel(caps, cls, content).Ok? ==>
              FromBaseModel(caps, cls, content).value == FromRootModel(caps, cls, content).value
    ensures FromBaseModel(caps, cls, content) == Err(ModelKwargsFailed(cls))
            <==> FromRootModel(caps, cls, content) == Err(RootModelCreateFailed(cls))
    ensures FromBaseModel(caps, cls, content) == Err(ModelValidateFailed(cls))
            <==> caps.construct(content).Returns? && caps.revalidate(caps.construct(content).value) == Some(ValidationError)
  {
  }

  /** The generic tail for other classes: `cls(**content)`, else `cls()` with
      its `__dict__` replaced by the content, else the content itself. No
      failure here raises. */
  function FromConstructors(caps: ClassCaps, cls: ClassId, content: Entries): (r: Value)
    ensures caps.construct(content).Returns? ==> r == caps.construct(content).value
    ensures caps.construct(content).Raises? && caps.blankInit ==> r == Obj(cls, Attrs(content))
    ensures caps.construct(content).Raises? && !caps.blankInit ==> r == Dict(content)
  {
    match caps.construct(content)
    case Returns(obj) => obj
    case Raises(_) => if caps.blankInit then Obj(cls, Attrs(content)) else Dict(content)
  }

  /** The strategies after the hook: pydantic models never reach the generic
      constructors, and for other classes nothing fails. */
  function FromClass(caps: ClassCaps, cls: ClassId, content: Entries): (r: Result<Value, DecodeError>)
    ensures caps.kind.Plain? ==> r == Ok(FromConstructors(caps, cls, content))
    ensures caps.kind.RootModel? ==> r == FromRootModel(caps, cls, content)
    ensures caps.kind.BaseModel? ==> r == FromBaseModel(caps, cls, content)
  {
    match caps.kind
    case RootModel => FromRootModel(caps, cls, content)
    case BaseModel => FromBaseModel(caps, cls, content)
    case Plain => Ok(FromConstructors(caps, cls, content))
  }

  /** The `__json_decode__` strategy and everything after it. */
  function FromHook(d: Decoder, cls: ClassId, content: Entries): (r: Traced<Value, DecodeError>)
    ensures d.world.caps(cls).decodeHook.None? ==> r == Traced(FromClass(d.world.caps(cls), cls, content), [])
    ensures d.world.caps(cls).decodeHook.Some? && d.world.caps(cls).decodeHook.value(content).Returns? ==>
              r == Traced(Ok(d.world.caps(cls).decodeHook.value(content).value), [])
    ensures d.world.caps(cls).decodeHook.Some? && d.world.caps(cls).decodeHook.value(content) == Raises(AttributeError) ==>
              r == Traced(FromClass(d.world.caps(cls), cls, content), [])
    ensures d.world.caps(cls).decodeHook.Some? && d.world.caps(cls).decodeHook.value(content).Raises?
            && d.world.caps(cls).decodeHook.value(content).exc != AttributeError ==>
              r == (if d.fallback then Warn(DecodeHookFallback(cls), Traced(FromClass(d.world.caps(cls), cls, content), []))
                    else Traced(Err(DecodeHookFailed(cls, d.world.caps(cls).decodeHook.value(content).exc)), []))
    ensures |r.warnings| <= 1
    ensures !d.fallback ==> r.warnings == []
  {
    var caps := d.world.caps(cls);
    match caps.decodeHook
    case None => Traced(FromClass(caps, cls, content), [])
    case Some(hook) =>
      match hook(content)
      case Returns(obj) => Traced(Ok(obj), [])
      case Raises(AttributeError) => Traced(FromClass(caps, cls, content), [])
      case Raises(e) =>
        if d.fallback then Warn(DecodeHookFallback(cls), Traced(FromClass(caps, cls, content), []))
        else Traced(Err(DecodeHookFailed(cls, e)), [])
  }

  /** Reconstruction of a resolved class from the tag-free content: the
      registered decoder, matched by exact class, then the hook, then the
      class-shape strategies. A failing decoder or hook is an error unless
      the fallback flag is on, in which case it leaves one warning and the
      next strategy runs. */
  function Reconstruct(d: Decoder, cls: ClassId, content: Entries): (r: Traced<Value, DecodeError>)
    ensures cls in d.decoders && d.decoders[cls](content).Returns? ==>
              r == Traced(Ok(d.decoders[cls](content).value), [])
    ensures cls in d.decoders && d.decoders[cls](content).Raises? && !d.fallback ==>
              r == Traced(Err(DecodingFunctionFailed(cls, d.decoders[cls](content).exc)), [])
    ensures |r.warnings| <= 2
    ensures !d.fallback ==> r.warnings == []
    ensures r.result.Err? && r.result.error.DecodingFunctionFailed? ==> !d.fallback
    ensures r.result.Err? && r.result.error.DecodeHookFailed? ==> !d.fallback
  {
    if cls in d.decoders then
      match d.decoders[cls](content)
      case Returns(obj) => Traced(Ok(obj), [])
      case Raises(e) =>
        if d.fallback then Warn(DecodingFunctionFallback(cls), FromHook(d, cls, content))
        else Traced(Err(DecodingFunctionFailed(cls, e)), [])
    else
      FromHook(d, cls, content)
  }

  /** `universal_decoder(the_dict)`: the object hook for one JSON object. */
  function UniversalDecoder(d: Decoder, node: Entries): (r: Traced<Value, DecodeError>)
    ensures !d.fallback ==> r.warnings == []
    ensures !HasKey(node, ClassKey) ==> r == Traced(Ok(Dict(node)), [])
    ensures HasKey(node, ClassKey) && !HasKey(node, ModuleKey) ==> r == Traced(Err(MissingModuleTag), [])
    ensures HasKey(node, ClassKey) && HasKey(node, ModuleKey) ==>
              match ResolveClass(d, Lookup(node, ClassKey).value, Lookup(node, ModuleKey).value)
              case Err(e) => r == Traced(Err(e), [])
              case Ok(cls) => r == Reconstruct(d, cls, StripTags(node))
  {
    match Lookup(node, ClassKey)
    case None => Traced(Ok(Dict(node)), [])
    case Some(className) =>
      var rest := Without(node, ClassKey);
      match Lookup(rest, ModuleKey)
      case None => Traced(Err(MissingModuleTag), [])
      case Some(moduleName) =>
        LemmaLookupWithout(node, ClassKey, ModuleKey);
        match ResolveClass(d, className, moduleName)
        case Err(e) => Traced(Err(e), [])
        case Ok(cls) => Reconstruct(d, cls, Without(rest, ModuleKey))
  }

  /** The fallback flag plays no part in class resolution: in particular a
      failed import is an error whichever way the flag is set. */
  lemma LemmaResolveIgnoresFallback(d: Decoder, className: Value, moduleName: Value)
    ensures ResolveClass(d, className, moduleName) == ResolveClass(d.(fallback := !d.fallback), className, moduleName)
  {
  }

  /** Dropping one key does not change what another key maps to. */
  lemma {:induction false} LemmaLookupWithout(d: Entries, k: string, other: string)
    requires k != other
    ensures Lookup(Without(d, k), other) == Lookup(d, other)
  {
    if d != [] {
      LemmaLookupWithout(d[1..], k, other);
    }
  }

  /** The parser's bottom-up walk: arrays and objects are rebuilt from their
      decoded members, and every object is then handed to the hook. The
      first error stops the walk; warnings accumulate in document order. */
  function DecodeTree(d: Decoder, v: Value): (r: Traced<Value, DecodeError>)
    ensures !v.List? && !v.Dict? ==> r == Traced(Ok(v), [])
    ensures v.List? && r.result.Ok? ==> r.result.value.List? && |r.result.value.items| == |v.items|
    ensures !d.fallback ==> r.warnings == []
    decreases v
  {
    match v
    case List(items) =>
      var t := DecodeItems(d, items);
      (match t.result
       case Err(e) => Traced(Err(e), t.warnings)
       case Ok(vs) => Traced(Ok(List(vs)), t.warnings))
    case Dict(entries) =>
      var t := DecodeEntries(d, entries);
      (match t.result
       case Err(e) => Traced(Err(e), t.warnings)
       case Ok(es) =>
         var h := UniversalDecoder(d, es);
         Traced(h.result, t.warnings + h.warnings))
    case _ => Traced(Ok(v), [])
  }

  function DecodeItems(d: Decoder, items: seq<Value>): (r: Traced<seq<Value>, DecodeError>)
    ensures r.result.Ok? ==> |r.result.value| == |items|
    ensures !d.fallback ==> r.warnings == []
    decreases items
  {
    if items == [] then Traced(Ok([]), [])
    else
      var h := DecodeTree(d, items[0]);
      match h.result
      case Err(e) => Traced(Err(e), h.warnings)
      case Ok(x) =>
        var t := DecodeItems(d, items[1..]);
        match t.result
        case Err(e) => Traced(Err(e), h.warnings + t.warnings)
        case Ok(xs) => Traced(Ok([x] + xs), h.warnings + t.warnings)
  }

  /** Decodes the member values of an object, keeping keys and order. */
  function DecodeEntries(d: Decoder, entries: Entries): (r: Traced<Entries, DecodeError>)
    ensures r.result.Ok? ==> |r.result.value| == |entries|
    ensures r.result.Ok? ==> forall i :: 0 <= i < |entries| ==> r.result.value[i].0 == entries[i].0
    ensures !d.fallback ==> r.warnings == []
    decreases entries
  {
    if entries == [] then Traced(Ok([]), [])
    else
      var (key, member) := entries[0];
      assert member < entries[0];
      var h := DecodeTree(d, member);
      match h.result
      case Err(e) => Traced(Err(e), h.warnings)
      case Ok(x) =>
        var t := DecodeEntries(d, entries[1..]);
        match t.result
        case Err(e) => Traced(Err(e), h.warnings + t.warnings)
        case Ok(xs) => Traced(Ok([(key, x)] + xs), h.warnings + t.warnings)
  }

  /** A strategy's verdict in the reference formulation of reconstruction:
      it decides the result, or passes (leaving a warning when it failed
      under the fallback flag). */
  datatype Step = Done(result: Result<Value, DecodeError>) | Skip | SkipWithWarning(w: Warning)

  /** An ordered list of strategies: the first `Done` decides, the warnings of
      the strategies skipped before it are kept, and when none decides the
      result is `otherwise`. */
  function RunChain(steps: seq<Step>, otherwise: Value): (r: Traced<Value, DecodeError>)
    ensures (forall i :: 0 <= i < |steps| ==> steps[i].Skip?) ==> r == Traced(Ok(otherwise), [])
  {
    if steps == [] then Traced(Ok(otherwise), [])
    else
      match steps[0]
      case Done(res) => Traced(res, [])
      case Skip => RunChain(steps[1..], otherwise)
      case SkipWithWarning(w) => Warn(w, RunChain(steps[1..], otherwise))
  }

  /** A step that fails: an error, or a warning when the fallback flag is on. */
  function Failing(d: Decoder, w: Warning, e: DecodeError): Step {
    if d.fallback then SkipWithWarning(w) else Done(Err(e))
  }

  function RegisteredStep(d: Decoder, cls: ClassId, content: Entries): Step {
    if cls !in d.decoders then Skip
    else
      match d.decoders[cls](content)
      case Returns(obj) => Done(Ok(obj))
      case Raises(e) => Failing(d, DecodingFunctionFallback(cls), DecodingFunctionFailed(cls, e))
  }

  function HookStep(d: Decoder, cls: ClassId, content: Entries): Step {
    match d.world.caps(cls).decodeHook
    case None => Skip
    case Some(hook) =>
      match hook(content)
      case Returns(obj) => Done(Ok(obj))
      case Raises(AttributeError) => Skip
      case Raises(e) => Failing(d, DecodeHookFallback(cls), DecodeHookFailed(cls, e))
  }

  function ModelStep(caps: ClassCaps, cls: ClassId, content: Entries): Step {
    match caps.kind
    case RootModel => Done(FromRootModel(caps, cls, content))
    case BaseModel => Done(FromBaseModel(caps, cls, content))
    case Plain => Skip
  }

  function KwargsStep(caps: ClassCaps, content: Entries): Step {
    match caps.construct(content)
    case Returns(obj) => Done(Ok(obj))
    case Raises(_) => Skip
  }

  function BlankInstanceStep(caps: ClassCaps, cls: ClassId, content: Entries): Step {
    if caps.blankInit then Done(Ok(Obj(cls, Attrs(content)))) else Skip
  }

  /** The strategies that depend on the class's shape alone. */
  function ClassSteps(caps: ClassCaps, cls: ClassId, content: Entries): seq<Step> {
    [ModelStep(caps, cls, content), KwargsStep(caps, content), BlankInstanceStep(caps, cls, content)]
  }

  /** The documented order: registered decoder, `__json_decode__`, pydantic
      model, keyword constructor, blank instance; the raw dict otherwise. */
  function Strategies(d: Decoder, cls: ClassId, content: Entries): seq<Step> {
    [RegisteredStep(d, cls, content), HookStep(d, cls, content)] + ClassSteps(d.world.caps(cls), cls, content)
  }

  lemma LemmaClassStepsChain(caps: ClassCaps, cls: ClassId, content: Entries)
    ensures RunChain(ClassSteps(caps, cls, content), Dict(content)) == Traced(FromClass(caps, cls, content), [])
  {
    var steps := ClassSteps(caps, cls, content);
    if caps.kind.Plain? {
      assert steps[1..] == [KwargsStep(caps, content), BlankInstanceStep(caps, cls, content)];
      assert steps[1..][1..] == [BlankInstanceStep(caps, cls, content)];
      assert steps[1..][1..][1..] == [];
      var blank := RunChain(steps[1..][1..], Dict(content));
      assert blank == Traced(if caps.blankInit then Ok(Obj(cls, Attrs(content))) else Ok(Dict(content)), []);
      assert RunChain(steps[1..], Dict(content)) == Traced(Ok(FromConstructors(caps, cls, content)), []);
    }
  }

  lemma LemmaHookStepsChain(d: Decoder, cls: ClassId, content: Entries)
    ensures RunChain([HookStep(d, cls, content)] + ClassSteps(d.world.caps(cls), cls, content), Dict(content))
            == FromHook(d, cls, content)
  {
    var caps := d.world.caps(cls);
    var steps := [HookStep(d, cls, content)] + ClassSteps(caps, cls, content);
    assert steps[1..] == ClassSteps(caps, cls, content);
    LemmaClassStepsChain(caps, cls, content);
  }

  /** `Reconstruct` is exactly the ordered strategy list run first-success-wins. */
  lemma LemmaReconstructIsChain(d: Decoder, cls: ClassId, content: Entries)
    ensures Reconstruct(d, cls, content) == RunChain(Strategies(d, cls, content), Dict(content))
  {
    var steps := Strategies(d, cls, content);
    assert steps[1..] == [HookStep(d, cls, content)] + ClassSteps(d.world.caps(cls), cls, content);
    LemmaHookStepsChain(d, cls, content);
  }

  /** Under the fallback flag, a failing registered decoder leaves one warning
      and decoding goes on exactly as if no decoder were registered. */
  lemma LemmaFallbackSkipsFailingDecoder(d: Decoder, cls: ClassId, content: Entries)
    requires d.fallback && cls in d.decoders && d.decoders[cls](content).Raises?
    ensures Reconstruct(d, cls, content)
            == Warn(DecodingFunctionFallback(cls), Reconstruct(d.(decoders := d.decoders - {cls}), cls, content))
  {
  }

  /** A hook that raises AttributeError counts as no hook at all, whatever
      the fallback flag. */
  lemma LemmaHookAttributeErrorIsNoHook(d: Decoder, cls: ClassId, content: Entries)
    requires d.world.caps(cls).decodeHook.Some? && d.world.caps(cls).decodeHook.value(content) == Raises(AttributeError)
    ensures var noHook := d.world.caps(cls).(decodeHook := None);
            var d' := d.(world := d.world.(caps := c => if c == cls then noHook else d.world.caps(c)));
            Reconstruct(d, cls, content) == Reconstruct(d', cls, content)
  {
  }

  /** A tree without tagged objects decodes to itself, with no warning. */
  lemma {:induction false} LemmaDecodeUntagged(d: Decoder, v: Value)
    requires Untagged(v)
    ensures DecodeTree(d, v) == Traced(Ok(v), [])
    decreases v
  {
    match v
    case List(items) =>
      LemmaDecodeItemsUntagged(d, items);
    case Dict(entries) =>
      LemmaDecodeEntriesUntagged(d, entries);
    case _ =>
  }

  lemma {:induction false} LemmaDecodeItemsUntagged(d: Decoder, items: seq<Value>)
    requires forall i :: 0 <= i < |items| ==> Untagged(items[i])
    ensures DecodeItems(d, items) == Traced(Ok(items), [])
    decreases items
  {
    if items != [] {
      LemmaDecodeUntagged(d, items[0]);
      LemmaDecodeItemsUntagged(d, items[1..]);
      assert [items[0]] + items[1..] == items;
    }
  }

  lemma {:induction false} LemmaDecodeEntriesUntagged(d: Decoder, entries: Entries)
    requires forall i :: 0 <= i < |entries| ==> Untagged(entries[i].1)
    ensures DecodeEntries(d, entries) == Traced(Ok(entries), [])
    decreases entries
  {
    if entries != [] {
      var (key, member) := entries[0];
      assert member < entries[0];
      LemmaDecodeUntagged(d, member);
      LemmaDecodeEntriesUntagged(d, entries[1..]);
      assert [(key, member)] + entries[1..] == entries;
    }
  }
}

=== FILE: json_encoder.dfy ===
/** `UniversalJSONEncoder`: turns values JSON cannot represent into tagged
    JSON objects.

    `Default` is the encoder's `default(obj)` hook: the registered encoding
    function for the exact class, then the object's `__json_encode__`, then
    its attribute dict; the content is then tagged with `"__class__"` and
    `"__module__"` unless it already carries them. `EncodeTree` is the JSON
    writer's walk, which calls `Default` on every value it cannot emit. */
module JsonEncoder {

  import opened Values
  import opened Dicts
  import opened Runtime

  type Entries = seq<(string, Value)>

  /** A registered encoding function: an object to its content dict. */
  type EncodeFn = Value -> Outcome<Entries>

  type EncoderTable = map<ClassId, EncodeFn>

  /** `IS_ENCODER_FALLBACK_ENABLED` is off unless a caller switches it on. */
  const DefaultFallback := false

  datatype EncodeError =
    | EncodingFunctionFailed(cls: ClassId, cause: ExcKind)   // UnijsonEncoderError
    | EncodeHookFailed(cls: ClassId, cause: ExcKind)         // UnijsonEncoderError
    | NotSerializable(cls: ClassId)                          // TypeError "is not JSON serializable"
    | DepthExceeded                                          // RecursionError in the writer

  /** The encoder's class-level function table, the classes it may meet and
      the fallback flag. */
  datatype Encoder = Encoder(encoders: EncoderTable, caps: ClassId -> ClassCaps, fallback: bool)

  /** `UniversalJSONEncoder.register(obj_type, encoding_function)`. */
  function Register(table: EncoderTable, objType: TypeArg, fn: FnArg<EncodeFn>): (r: Result<EncoderTable, RegisterError>)
    ensures objType.NotAType? ==> r == Err(ExpectedType)
    ensures objType.AType? && fn.NotCallable? ==> r == Err(ExpectedFunction)
    ensures r.Ok? <==> objType.AType? && fn.Callable?
    ensures r.Ok? ==> r.value == table[objType.cls := fn.fn]
  {
    RegisterIn(table, objType, fn)
  }

  /** The content with its type tags: the class name and module are added
      (in that order, at the end) only where the content lacks them; tags the
      content already carries are kept as they are. */
  function Tag(content: Entries, cls: ClassId): (r: Entries)
    ensures Lookup(r, ClassKey) == if HasKey(content, ClassKey) then Lookup(content, ClassKey) else Some(Str(cls.name))
    ensures Lookup(r, ModuleKey) == if HasKey(content, ModuleKey) then Lookup(content, ModuleKey) else Some(Str(cls.moduleName))
    ensures forall k :: k != ClassKey && k != ModuleKey ==> Lookup(r, k) == Lookup(content, k)
    ensures HasKey(content, ClassKey) && HasKey(content, ModuleKey) ==> r == content
  {
    SetDefault(SetDefault(content, ClassKey, Str(cls.name)), ModuleKey, Str(cls.moduleName))
  }

  /** The last strategy: the instance's `__dict__`; an instance without one is
      not serializable. */
  function FromAttributes(obj: Value): (r: Result<Entries, EncodeError>)
    ensures r.Ok? <==> obj.Obj? && obj.state.Attrs?
    ensures r.Ok? ==> r.value == obj.state.fields
    ensures r.Err? ==> r.error == NotSerializable(ClassOf(obj))
  {
    if obj.Obj? && obj.state.Attrs? then Ok(obj.state.fields) else Err(NotSerializable(ClassOf(obj)))
  }

  /** The `__json_encode__` strategy and the attribute dict after it. The
      hook is used when the object has the attribute; whatever it raises is a
      failure of the hook. */
  function FromEncodeHook(e: Encoder, obj: Value): (r: Traced<Entries, EncodeError>)
    ensures e.caps(ClassOf(obj)).encodeHook.None? ==> r == Traced(FromAttributes(obj), [])
    ensures e.caps(ClassOf(obj)).encodeHook.Some? && e.caps(ClassOf(obj)).encodeHook.value(obj).Returns? ==>
              r == Traced(Ok(e.caps(ClassOf(obj)).encodeHook.value(obj).value), [])
    ensures e.caps(ClassOf(obj)).encodeHook.Some? && e.caps(ClassOf(obj)).encodeHook.value(obj).Raises? && !e.fallback ==>
              r == Traced(Err(EncodeHookFailed(ClassOf(obj), e.caps(ClassOf(obj)).encodeHook.value(obj).exc)), [])
    ensures e.caps(ClassOf(obj)).encodeHook.Some? && e.caps(ClassOf(obj)).encodeHook.value(obj).Raises? && e.fallback ==>
              r == Warn(EncodeHookFallback(ClassOf(obj)), Traced(FromAttributes(obj), []))
    ensures |r.warnings| <= 1
    ensures !e.fallback ==> r.warnings == []
  {
    var cls := ClassOf(obj);
    match e.caps(cls).encodeHook
    case None => Traced(FromAttributes(obj), [])
    case Some(hook) =>
      match hook(obj)
      case Returns(content) => Traced(Ok(content), [])
      case Raises(exc) =>
        if e.fallback then Warn(EncodeHookFallback(cls), Traced(FromAttributes(obj), []))
        else Traced(Err(EncodeHookFailed(cls, exc)), [])
  }

  /** The untagged content of `obj`: the registered function for its exact
      class, else the hook, else the attribute dict. A failing function or
      hook is an error unless the fallback flag is on, in which case it
      leaves one warning and the next strategy runs. */
  function Content(e: Encoder, obj: Value): (r: Traced<Entries, EncodeError>)
    ensures ClassOf(obj) in e.encoders && e.encoders[ClassOf(obj)](obj).Returns? ==>
              r == Traced(Ok(e.encoders[ClassOf(obj)](obj).value), [])
    ensures ClassOf(obj) in e.encoders && e.encoders[ClassOf(obj)](obj).Raises? && !e.fallback ==>
              r == Traced(Err(EncodingFunctionFailed(ClassOf(obj), e.encoders[ClassOf(obj)](obj).exc)), [])
    ensures ClassOf(obj) !in e.encoders ==> r == FromEncodeHook(e, obj)
    ensures |r.warnings| <= 2
    ensures !e.fallback ==> r.warnings == []
  {
    var cls := ClassOf(obj);
    if cls in e.encoders then
      match e.encoders[cls](obj)
      case Returns(content) => Traced(Ok(content), [])
      case Raises(exc) =>
        if e.fallback then Warn(EncodingFunctionFallback(cls), FromEncodeHook(e, obj))
        else Traced(Err(EncodingFunctionFailed(cls, exc)), [])
    else
      FromEncodeHook(e, obj)
  }

  /** `default(obj)`: the content, tagged with the object's class. */
  function Default(e: Encoder, obj: Value): (r: Traced<Entries, EncodeError>)
    ensures r.warnings == Content(e, obj).warnings
    ensures r.result.Ok? <==> Content(e, obj).result.Ok?
    ensures r.result.Ok? ==>
              && Lookup(r.result.value, ClassKey)
                 == (if HasKey(Content(e, obj).result.value, ClassKey) then Lookup(Content(e, obj).result.value, ClassKey)
                     else Some(Str(ClassOf(obj).name)))
              && Lookup(r.result.value, ModuleKey)
                 == (if HasKey(Content(e, obj).result.value, ModuleKey) then Lookup(Content(e, obj).result.value, ModuleKey)
                     else Some(Str(ClassOf(obj).moduleName)))
              && forall k :: k != ClassKey && k != ModuleKey ==>
                   Lookup(r.result.value, k) == Lookup(Content(e, obj).result.value, k)
    ensures r.result.Err? ==> r.result == Content(e, obj).result
  {
    var c := Content(e, obj);
    match c.result
    case Ok(content) => Traced(Ok(Tag(content, ClassOf(obj))), c.warnings)
    case Err(err) => Traced(Err(err), c.warnings)
  }

  /** Encoding under the fallback flag: a failing registered function leaves
      one warning and the object is encoded as if no function were registered. */
  lemma LemmaFallbackSkipsFailingEncoder(e: Encoder, obj: Value)
    requires e.fallback && ClassOf(obj) in e.encoders && e.encoders[ClassOf(obj)](obj).Raises?
    ensures Default(e, obj) == Warn(EncodingFunctionFallback(ClassOf(obj)),
                                    Default(e.(encoders := e.encoders - {ClassOf(obj)}), obj))
  {
  }

  /** An object with neither a function, nor a hook, nor a `__dict__` is not
      serializable, and that error names its class. */
  lemma LemmaNothingApplies(e: Encoder, obj: Value)
    requires ClassOf(obj) !in e.encoders && e.caps(ClassOf(obj)).encodeHook.None?
    requires !(obj.Obj? && obj.state.Attrs?)
    ensures Default(e, obj) == Traced(Err(NotSerializable(ClassOf(obj))), [])
  {
  }

  /** The JSON writer's walk: native values are emitted structurally, every
      other value goes through `Default` and its (tagged) result is written in
      its place. `fuel` bounds the nesting of `Default` calls, standing for the
      interpreter's recursion limit. */
  function EncodeTree(e: Encoder, v: Value, fuel: nat): (r: Traced<Value, EncodeError>)
    ensures !v.List? && !v.Dict? && !v.Obj? ==> r == Traced(Ok(v), [])
    ensures v.Obj? && fuel == 0 ==> r == Traced(Err(DepthExceeded), [])
    ensures v.Obj? && r.result.Ok? ==>
              && Default(e, v).result.Ok? && r.result.value.Dict?
              && |r.result.value.entries| == |Default(e, v).result.value|
    ensures v.Obj? && fuel > 0 && Default(e, v).result.Err? ==> r == Traced(Err(Default(e, v).result.error), Default(e, v).warnings)
    ensures v.List? && r.result.Ok? ==> r.result.value.List? && |r.result.value.items| == |v.items|
    ensures !e.fallback ==> r.warnings == []
    decreases fuel, v
  {
    match v
    case List(items) =>
      var t := EncodeItems(e, items, fuel);
      Traced(if t.result.Ok? then Ok(List(t.result.value)) else Err(t.result.error), t.warnings)
    case Dict(entries) =>
      var t := EncodeEntries(e, entries, fuel);
      Traced(if t.result.Ok? then Ok(Dict(t.result.value)) else Err(t.result.error), t.warnings)
    case Obj(_, _) =>
      if fuel == 0 then Traced(Err(DepthExceeded), [])
      else
        var d := Default(e, v);
        (match d.result
         case Err(err) => Traced(Err(err), d.warnings)
         case Ok(content) =>
           var t := EncodeEntries(e, content, fuel - 1);
           Traced(if t.result.Ok? then Ok(Dict(t.result.value)) else Err(t.result.error), d.warnings + t.warnings))
    case _ => Traced(Ok(v), [])
  }

  function EncodeItems(e: Encoder, items: seq<Value>, fuel: nat): (r: Traced<seq<Value>, EncodeError>)
    ensures r.result.Ok? ==> |r.result.value| == |items|
    ensures !e.fallback ==> r.warnings == []
    decreases fuel, items
  {
    if items == [] then Traced(Ok([]), [])
    else
      var head := EncodeTree(e, items[0], fuel);
      match head.result
      case Err(err) => Traced(Err(err), head.warnings)
      case Ok(h) =>
        var tail := EncodeItems(e, items[1..], fuel);
        Traced(if tail.result.Ok? then Ok([h] + tail.result.value) else Err(tail.result.error),
               head.warnings + tail.warnings)
  }

  function EncodeEntries(e: Encoder, entries: Entries, fuel: nat): (r: Traced<Entries, EncodeError>)
    ensures r.result.Ok? ==> |r.result.value| == |entries|
    ensures r.result.Ok? ==> forall i :: 0 <= i < |entries| ==> r.result.value[i].0 == entries[i].0
    ensures !e.fallback ==> r.warnings == []
    decreases fuel, entries
  {
    if entries == [] then Traced(Ok([]), [])
    else
      var (key, member) := entries[0];
      assert member < entries[0];
      var head := EncodeTree(e, member, fuel);
      match head.result
      case Err(err) => Traced(Err(err), head.warnings)
      case Ok(h) =>
        var tail := EncodeEntries(e, entries[1..], fuel);
        Traced(if tail.result.Ok? then Ok([(key, h)] + tail.result.value) else Err(tail.result.error),
               head.warnings + tail.warnings)
  }

  /** Values JSON represents natively are written as they are: no tag, no
      warning, whatever the registered functions. */
  lemma {:induction false} LemmaEncodeNative(e: Encoder, v: Value, fuel: nat)
    requires IsJson(v)
    ensures EncodeTree(e, v, fuel) == Traced(Ok(v), [])
    decreases v
  {
    match v
    case List(items) => LemmaEncodeNativeItems(e, items, fuel);
    case Dict(entries) => LemmaEncodeNativeEntries(e, entries, fuel);
    case _ =>
  }

  lemma {:induction false} LemmaEncodeNativeItems(e: Encoder, items: seq<Value>, fuel: nat)
    requires forall i :: 0 <= i < |items| ==> IsJson(items[i])
    ensures EncodeItems(e, items, fuel) == Traced(Ok(items), [])
    decreases items
  {
    if items != [] {
      LemmaEncodeNative(e, items[0], fuel);
      LemmaEncodeNativeItems(e, items[1..], fuel);
      assert [items[0]] + items[1..] == items;
    }
  }

  lemma {:induction false} LemmaEncodeNativeEntries(e: Encoder, entries: Entries, fuel: nat)
    requires forall i :: 0 <= i < |entries| ==> IsJson(entries[i].1)
    ensures EncodeEntries(e, entries, fuel) == Traced(Ok(entries), [])
    decreases entries
  {
    if entries != [] {
      var (key, member) := entries[0];
      assert member < entries[0];
      LemmaEncodeNative(e, member, fuel);
      LemmaEncodeNativeEntries(e, entries[1..], fuel);
      assert [(key, member)] + entries[1..] == entries;
    }
  }

  /** A successful encoding leaves no value JSON cannot represent. */
  lemma {:induction false} LemmaEncodeIsJson(e: Encoder, v: Value, fuel: nat)
    requires EncodeTree(e, v, fuel).result.Ok?
    ensures IsJson(EncodeTree(e, v, fuel).result.value)
    decreases fuel, v
  {
    match v
    case List(items) => LemmaEncodeItemsIsJson(e, items, fuel);
    case Dict(entries) => LemmaEncodeEntriesIsJson(e, entries, fuel);
    case Obj(_, _) =>
      var d := Default(e, v);
      LemmaEncodeEntriesIsJson(e, d.result.value, fuel - 1);
    case _ =>
  }

  lemma {:induction false} LemmaEncodeItemsIsJson(e: Encoder, items: seq<Value>, fuel: nat)
    requires EncodeItems(e, items, fuel).result.Ok?
    ensures forall i :: 0 <= i < |items| ==> IsJson(EncodeItems(e, items, fuel).result.value[i])
    decreases fuel, items
  {
    if items != [] {
      LemmaEncodeIsJson(e, items[0], fuel);
      LemmaEncodeItemsIsJson(e, items[1..], fuel);
    }
  }

  lemma {:induction false} LemmaEncodeEntriesIsJson(e: Encoder, entries: Entries, fuel: nat)
    requires EncodeEntries(e, entries, fuel).result.Ok?
    ensures forall i :: 0 <= i < |entries| ==> IsJson(EncodeEntries(e, entries, fuel).result.value[i].1)
    decreases fuel, entries
  {
    if entries != [] {
      var (key, member) := entries[0];
      assert member < entries[0];
      LemmaEncodeIsJson(e, member, fuel);
      LemmaEncodeEntriesIsJson(e, entries[1..], fuel);
    }
  }
}

=== FILE: kajson_codecs.dfy ===
/** The date/time encoders and decoders defined in kajson/kajson.py.

    A `datetime.date`, `time`, `datetime`, `timedelta` or `ZoneInfo` object
    is an `Obj` of the matching class whose state is the tuple of its
    fields (no `__dict__`: these are C types). `DateValue`, `TimeValue`, ...
    build such objects and `AsDate`, `AsTime`, ... read them back. Each
    decoder follows its Python body statement by statement, with the
    exception each failing step raises. */
module Codecs {

  import opened Values
  import opened Dicts
  import opened Text

  type Entries = seq<(string, Value)>

  const DateClass := ClassId("date", "datetime")
  const DateTimeClass := ClassId("datetime", "datetime")
  const TimeClass := ClassId("time", "datetime")
  const TimedeltaClass := ClassId("timedelta", "datetime")
  const ZoneInfoClass := ClassId("ZoneInfo", "zoneinfo")

  const MinYear := 1
  const MaxYear := 9999

  datatype Date = Date(year: int, month: int, day: int)

  /** A `zoneinfo.ZoneInfo`, identified by its key. */
  datatype Zone = Zone(key: string)

  /** A `datetime.time`; `tzinfo` is the object itself (`None` when naive). */
  datatype Time = Time(hour: int, minute: int, second: int, microsecond: int, tzinfo: Value)

  /** A `datetime.datetime` whose zone, if any, is a `ZoneInfo`. */
  datatype DateTime = DateTime(date: Date, hour: int, minute: int, second: int, microsecond: int, zone: Option<Zone>)

  /** A `datetime.timedelta` in its normalised form. */
  datatype Timedelta = Timedelta(days: int, seconds: int, microseconds: int)

  predicate IsLeap(y: int) {
    y % 4 == 0 && (y % 100 != 0 || y % 400 == 0)
  }

  function DaysInMonth(y: int, m: int): (r: int)
    requires 1 <= m <= 12
    ensures 28 <= r <= 31
  {
    if m == 2 then (if IsLeap(y) then 29 else 28)
    else if m in {4, 6, 9, 11} then 30
    else 31
  }

  /** The checks of the `date` constructor. */
  predicate ValidDate(d: Date) {
    && MinYear <= d.year <= MaxYear
    && 1 <= d.month <= 12
    && 1 <= d.day <= DaysInMonth(d.year, d.month)
  }

  /** The clock-field checks of the `time` and `datetime` constructors. */
  predicate ValidClock(hour: int, minute: int, second: int, microsecond: int) {
    0 <= hour < 24 && 0 <= minute < 60 && 0 <= second < 60 && 0 <= microsecond < 1000000
  }

  /** `ZoneInfo(key)` only exists for a non-empty key. */
  predicate ValidZone(z: Zone) {
    z.key != ""
  }

  function NoZones(v: Value): Option<Zone> {
    None
  }

  /** `ZoneInfo(key)` with its time-zone database: the zone a value names,
      or `None` when the call raises. It only ever builds valid zones. */
  type ZoneDb = f: Value -> Option<Zone> | forall v :: f(v).Some? ==> ValidZone(f(v).value)
    witness NoZones

  function ZoneValue(z: Zone): Value {
    Obj(ZoneInfoClass, Sealed([Str(z.key)]))
  }

  function AsZone(v: Value): (r: Option<Zone>)
    ensures r.Some? ==> v == ZoneValue(r.value) && ValidZone(r.value)
  {
    if v.Obj? && v.cls == ZoneInfoClass && v.state.Sealed? && |v.state.slots| == 1
       && v.state.slots[0].Str? && v.state.slots[0].s != ""
    then Some(Zone(v.state.slots[0].s))
    else None
  }

  /** The objects the `time` constructor accepts as `tzinfo`. */
  predicate IsTzInfo(v: Value) {
    AsZone(v).Some?
  }

  predicate ValidTime(t: Time) {
    ValidClock(t.hour, t.minute, t.second, t.microsecond) && (t.tzinfo.Null? || IsTzInfo(t.tzinfo))
  }

  predicate ValidDateTime(dt: DateTime) {
    && ValidDate(dt.date)
    && ValidClock(dt.hour, dt.minute, dt.second, dt.microsecond)
    && (dt.zone.Some? ==> ValidZone(dt.zone.value))
  }

  predicate ValidTimedelta(td: Timedelta) {
    0 <= td.seconds < 86400 && 0 <= td.microseconds < 1000000
  }

  /** The range of the C `int` the constructors parse their arguments into;
      a larger argument raises OverflowError before any range check. */
  predicate CInt(i: int) {
    -0x8000_0000 <= i < 0x8000_0000
  }

  function DateValue(d: Date): Value {
    Obj(DateClass, Sealed([Int(d.year), Int(d.month), Int(d.day)]))
  }

  function AsDate(v: Value): (r: Option<Date>)
    ensures r.Some? ==> v == DateValue(r.value) && ValidDate(r.value)
    ensures forall d :: ValidDate(d) && v == DateValue(d) ==> r == Some(d)
  {
    if v.Obj? && v.cls == DateClass && v.state.Sealed? && |v.state.slots| == 3
       && v.state.slots[0].Int?
       && v.state.slots[1].Int?
       && v.state.slots[2].Int?
       && ValidDate(Date(v.state.slots[0].i, v.state.slots[1].i, v.state.slots[2].i))
    then Some(Date(v.state.slots[0].i, v.state.slots[1].i, v.state.slots[2].i))
    else None
  }

  function TimeValue(t: Time): Value {
    Obj(TimeClass, Sealed([Int(t.hour), Int(t.minute), Int(t.second),
                           Int(t.microsecond), t.tzinfo]))
  }

  function AsTime(v: Value): (r: Option<Time>)
    ensures r.Some? ==> v == TimeValue(r.value) && ValidTime(r.value)
    ensures forall t :: ValidTime(t) && v == TimeValue(t) ==> r == Some(t)
  {
    if v.Obj? && v.cls == TimeClass && v.state.Sealed? && |v.state.slots| == 5
       && v.state.slots[0].Int?
       && v.state.slots[1].Int?
       && v.state.slots[2].Int?
       && v.state.slots[3].Int?
       && ValidTime(Time(v.state.slots[0].i, v.state.slots[1].i, v.state.slots[2].i,
                         v.state.slots[3].i, v.state.slots[4]))
    then Some(Time(v.state.slots[0].i, v.state.slots[1].i, v.state.slots[2].i,
                   v.state.slots[3].i, v.state.slots[4]))
    else None
  }

  function ZoneSlot(zone: Option<Zone>): Value {
    if zone.Some? then ZoneValue(zone.value) else Null
  }

  function DateTimeValue(dt: DateTime): Value {
    Obj(DateTimeClass, Sealed([Int(dt.date.year), Int(dt.date.month), Int(dt.date.day),
                               Int(dt.hour), Int(dt.minute), Int(dt.second),
                               Int(dt.microsecond), ZoneSlot(dt.zone)]))
  }

  function AsDateTime(v: Value): (r: Option<DateTime>)
    ensures r.Some? ==> v == DateTimeValue(r.value) && ValidDateTime(r.value)
    ensures forall dt :: ValidDateTime(dt) && v == DateTimeValue(dt) ==> r == Some(dt)
  {
    if v.Obj? && v.cls == DateTimeClass && v.state.Sealed? && |v.state.slots| == 8
       && v.state.slots[0].Int?
       && v.state.slots[1].Int?
       && v.state.slots[2].Int?
       && v.state.slots[3].Int?
       && v.state.slots[4].Int?
       && v.state.slots[5].Int?
       && v.state.slots[6].Int?
       && (v.state.slots[7].Null? || AsZone(v.state.slots[7]).Some?)
    then
      var zone := if v.state.slots[7].Null? then None else AsZone(v.state.slots[7]);
      var dt := DateTime(Date(v.state.slots[0].i, v.state.slots[1].i, v.state.slots[2].i),
                         v.state.slots[3].i, v.state.slots[4].i, v.state.slots[5].i, v.state.slots[6].i, zone);
      if ValidDateTime(dt) then Some(dt) else None
    else None
  }

  function TimedeltaValue(td: Timedelta): Value {
    Obj(TimedeltaClass, Sealed([Int(td.days), Int(td.seconds), Int(td.microseconds)]))
  }

  function AsTimedelta(v: Value): (r: Option<Timedelta>)
    ensures r.Some? ==> v == TimedeltaValue(r.value) && ValidTimedelta(r.value)
  {
    if v.Obj? && v.cls == TimedeltaClass && v.state.Sealed? && |v.state.slots| == 3
       && v.state.slots[0].Int?
       && v.state.slots[1].Int?
       && v.state.slots[2].Int?
       && ValidTimedelta(Timedelta(v.state.slots[0].i, v.state.slots[1].i, v.state.slots[2].i))
    then Some(Timedelta(v.state.slots[0].i, v.state.slots[1].i, v.state.slots[2].i))
    else None
  }

  // ---------------------------------------------------------------------
  // The Python operations the decoders are written with.

  /** `d[k]`: KeyError when the key is absent. */
  function Subscript(d: Entries, k: string): (r: Outcome<Value>)
    ensures r.Returns? <==> HasKey(d, k)
    ensures r.Returns? ==> Lookup(d, k) == Some(r.value)
    ensures r.Raises? ==> r.exc == KeyError
  {
    match Lookup(d, k)
    case Some(v) => Returns(v)
    case None => Raises(KeyError)
  }

  /** `s[i]`: IndexError past the end. */
  function At<T>(s: seq<T>, i: nat): (r: Outcome<T>)
    ensures r.Returns? <==> i < |s|
    ensures r.Returns? ==> r.value == s[i]
    ensures r.Raises? ==> r.exc == IndexError
  {
    if i < |s| then Returns(s[i]) else Raises(IndexError)
  }

  /** `int(s)`: ValueError on text that is not a decimal integer. */
  function IntOf(s: string): (r: Outcome<int>)
    ensures r.Returns? <==> ParseInt(s).Some?
    ensures r.Returns? ==> r.value == ParseInt(s).value
    ensures r.Raises? ==> r.exc == ValueError
  {
    match ParseInt(s)
    case Some(i) => Returns(i)
    case None => Raises(ValueError)
  }

  /** A string method called on `v`: `exc` when `v` is not a string. */
  function TextOf(v: Value, exc: ExcKind): (r: Outcome<string>)
    ensures r.Returns? <==> v.Str?
    ensures r.Returns? ==> r.value == v.s
    ensures r.Raises? ==> r.exc == exc
  {
    if v.Str? then Returns(v.s) else Raises(exc)
  }

  /** `datetime.date(year, month, day)`. */
  function MakeDate(year: int, month: int, day: int): (r: Outcome<Value>)
    ensures r.Returns? <==> ValidDate(Date(year, month, day))
    ensures r.Returns? ==> r.value == DateValue(Date(year, month, day))
    ensures r.Raises? ==> r.exc == (if CInt(year) && CInt(month) && CInt(day) then ValueError else OverflowError)
  {
    if !(CInt(year) && CInt(month) && CInt(day)) then Raises(OverflowError)
    else if !ValidDate(Date(year, month, day)) then Raises(ValueError)
    else Returns(DateValue(Date(year, month, day)))
  }

  /** `datetime.time(hour, minute, second, microsecond, tzinfo=tzinfo)`:
      argument overflow, then the clock ranges (ValueError), then the
      `tzinfo` type (TypeError). */
  function MakeTime(hour: int, minute: int, second: int, microsecond: int, tzinfo: Value): (r: Outcome<Value>)
    ensures r.Returns? <==> ValidTime(Time(hour, minute, second, microsecond, tzinfo))
    ensures r.Returns? ==> r.value == TimeValue(Time(hour, minute, second, microsecond, tzinfo))
    ensures r.Raises? && ValidClock(hour, minute, second, microsecond) ==> r.exc == TypeError
    ensures r.Raises? && !ValidClock(hour, minute, second, microsecond) ==> r.exc in {ValueError, OverflowError}
  {
    if !(CInt(hour) && CInt(minute) && CInt(second) && CInt(microsecond)) then Raises(OverflowError)
    else if !ValidClock(hour, minute, second, microsecond) then Raises(ValueError)
    else if !(tzinfo.Null? || IsTzInfo(tzinfo)) then Raises(TypeError)
    else Returns(TimeValue(Time(hour, minute, second, microsecond, tzinfo)))
  }

  // ---------------------------------------------------------------------
  // Text forms.

  /** `str(d)`, i.e. `YYYY-MM-DD`: three zero-padded digit fields joined
      by `-`. */
  function DateText(d: Date): (r: string)
    requires ValidDate(d)
    ensures |r| == 10 && r[4] == '-' && r[7] == '-'
    ensures AllDigits(r[0..4]) && AllDigits(r[5..7]) && AllDigits(r[8..10])
  {
    var year, month, day := Fixed(d.year, 4), Fixed(d.month, 2), Fixed(d.day, 2);
    var r := year + "-" + month + "-" + day;
    assert r[0..4] == year && r[5..7] == month && r[8..10] == day;
    r
  }

  /** The digit fields of `str(d)` denote the date's year, month and day. */
  lemma LemmaDateTextFields(d: Date)
    requires ValidDate(d)
    ensures DigitsValue(DateText(d)[0..4]) == d.year
    ensures DigitsValue(DateText(d)[5..7]) == d.month
    ensures DigitsValue(DateText(d)[8..10]) == d.day
  {
    var s := DateText(d);
    assert s[0..4] == Fixed(d.year, 4) && s[5..7] == Fixed(d.month, 2) && s[8..10] == Fixed(d.day, 2);
    LemmaPow10Values();
    LemmaFixedValue(d.year, 4);
    LemmaFixedValue(d.month, 2);
    LemmaFixedValue(d.day, 2);
  }

  /** `strftime("%H:%M:%S.%f")`: two-digit hour, minute and second joined
      by `:`, then `.` and six digits of microseconds. */
  function ClockText(hour: int, minute: int, second: int, microsecond: int): (r: string)
    requires ValidClock(hour, minute, second, microsecond)
    ensures |r| == 15 && r[2] == ':' && r[5] == ':' && r[8] == '.'
    ensures AllDigits(r[0..2]) && AllDigits(r[3..5]) && AllDigits(r[6..8]) && AllDigits(r[9..15])
  {
    var h, m, s, us := Fixed(hour, 2), Fixed(minute, 2), Fixed(second, 2), Fixed(microsecond, 6);
    var r := h + ":" + m + ":" + s + "." + us;
    assert r[0..2] == h by { assert r == h + (":" + m + ":" + s + "." + us); }
    assert r[3..5] == m by { assert r == (h + ":") + m + (":" + s + "." + us); }
    assert r[6..8] == s by { assert r == (h + ":" + m + ":") + s + ("." + us); }
    assert r[9..15] == us;
    r
  }

  /** The digit fields of the clock text denote the clock's fields. */
  lemma LemmaClockTextFields(hour: int, minute: int, second: int, microsecond: int)
    requires ValidClock(hour, minute, second, microsecond)
    ensures DigitsValue(ClockText(hour, minute, second, microsecond)[0..2]) == hour
    ensures DigitsValue(ClockText(hour, minute, second, microsecond)[3..5]) == minute
    ensures DigitsValue(ClockText(hour, minute, second, microsecond)[6..8]) == second
    ensures DigitsValue(ClockText(hour, minute, second, microsecond)[9..15]) == microsecond
  {
    var s := ClockText(hour, minute, second, microsecond);
    assert s[0..2] == Fixed(hour, 2) && s[3..5] == Fixed(minute, 2);
    assert s[6..8] == Fixed(second, 2) && s[9..15] == Fixed(microsecond, 6);
    LemmaPow10Values();
    LemmaFixedValue(hour, 2);
    LemmaFixedValue(minute, 2);
    LemmaFixedValue(second, 2);
    LemmaFixedValue(microsecond, 6);
  }

  /** `strftime("%Y-%m-%d %H:%M:%S.%f")`: the date text, a space, the clock
      text. */
  function DateTimeText(dt: DateTime): (r: string)
    requires ValidDateTime(dt)
    ensures |r| == 26 && r[10] == ' '
    ensures r[4] == '-' && r[7] == '-' && r[13] == ':' && r[16] == ':' && r[19] == '.'
  {
    var r := DateText(dt.date) + " " + ClockText(dt.hour, dt.minute, dt.second, dt.microsecond);
    assert r[0..10] == DateText(dt.date) && r[11..26] == ClockText(dt.hour, dt.minute, dt.second, dt.microsecond);
    r
  }

  /** `strptime(s, "%Y-%m-%d %H:%M:%S.%f")` on the zero-padded form: a naive
      datetime, or `None` (ValueError) for text of another shape or fields
      that do not make a valid datetime. */
  function ParseDateTime(s: string): (r: Option<DateTime>)
    ensures r.Some? ==> ValidDateTime(r.value) && r.value.zone.None? && |s| == 26
  {
    if |s| == 26 && s[4] == '-' && s[7] == '-' && s[10] == ' ' && s[13] == ':' && s[16] == ':' && s[19] == '.'
       && AllDigits(s[0..4]) && AllDigits(s[5..7]) && AllDigits(s[8..10]) && AllDigits(s[11..13])
       && AllDigits(s[14..16]) && AllDigits(s[17..19]) && AllDigits(s[20..26])
    then
      var dt := DateTime(Date(DigitsValue(s[0..4]), DigitsValue(s[5..7]), DigitsValue(s[8..10])),
                         DigitsValue(s[11..13]), DigitsValue(s[14..16]), DigitsValue(s[17..19]), DigitsValue(s[20..26]), None);
      if ValidDateTime(dt) then Some(dt) else None
    else None
  }

  // ---------------------------------------------------------------------
  // The codecs.

  /** `json_encode_date`: a single `"date"` field holding `str(d)`. */
  function EncodeDate(d: Date): (r: Entries)
    requires ValidDate(d)
    ensures |r| == 1 && r[0].0 == "date" && r[0].1.Str? && |r[0].1.s| == 10
  {
    [("date", Str(DateText(d)))]
  }

  /** `json_decode_date`: `date(*map(int, d["date"].split("-")))`. */
  function DecodeDate(content: Entries): (r: Outcome<Value>)
    ensures !HasKey(content, "date") ==> r == Raises(KeyError)
    ensures HasKey(content, "date") && !Lookup(content, "date").value.Str? ==> r == Raises(AttributeError)
    ensures r.Returns? ==> AsDate(r.value).Some?
    ensures r.Raises? && HasKey(content, "date") && Lookup(content, "date").value.Str? ==>
              r.exc in {ValueError, OverflowError}
  {
    var text :- Subscript(content, "date");
    var s :- TextOf(text, AttributeError);
    var parts := Split(s, '-');
    if |parts| != 3 then Raises(ValueError)
    else
      var year :- IntOf(parts[0]);
      var month :- IntOf(parts[1]);
      var day :- IntOf(parts[2]);
      MakeDate(year, month, day)
  }

  /** A year written with more digits than `int` accepts is refused with
      ValueError by `int`, before `date()` could see the number, whatever
      follows it. */
  lemma LemmaOverlongYearIsValueError(content: Entries, year: string, rest: string)
    requires AllDigits(year) && |year| > MaxStrDigits
    requires Lookup(content, "date") == Some(Str(year + "-" + rest))
    ensures DecodeDate(content) == Raises(ValueError)
  {
    LemmaNoSepInDigits(year, '-');
    LemmaSplitCons(year, '-', rest);
    LemmaTooManyDigits(year);
    assert Split(year + "-" + rest, '-')[0] == year;
  }

  /** `json_encode_time`: the clock text and the `tzinfo` object as it is. */
  function EncodeTime(t: Time): (r: Entries)
    requires ValidTime(t)
    ensures |r| == 2 && r[0].0 == "time" && r[1] == ("tzinfo", t.tzinfo)
  {
    [("time", Str(ClockText(t.hour, t.minute, t.second, t.microsecond))), ("tzinfo", t.tzinfo)]
  }

  /** The clock fields of `json_decode_time`: split on `:`, the third piece
      on `.`, then `int` each piece in turn (the fraction is read as a count
      of microseconds). Extra pieces are ignored. */
  function ReadClock(s: string): (r: Outcome<(int, int, int, int)>)
    ensures r.Raises? ==> r.exc in {ValueError, IndexError}
  {
    var parts := Split(s, ':');
    var hours :- IntOf(parts[0]);
    var minutePart :- At(parts, 1);
    var minutes :- IntOf(minutePart);
    var secondPart :- At(parts, 2);
    var seconds :- ReadSeconds(secondPart);
    Returns((hours, minutes, seconds.0, seconds.1))
  }

  /** The seconds piece split on `.`: the whole seconds, then the
      fraction read as a whole number. */
  function ReadSeconds(s: string): (r: Outcome<(int, int)>)
    ensures r.Raises? ==> r.exc in {ValueError, IndexError}
  {
    var secondParts := Split(s, '.');
    var seconds :- IntOf(secondParts[0]);
    var fractionPart :- At(secondParts, 1);
    var microseconds :- IntOf(fractionPart);
    Returns((seconds, microseconds))
  }

  /** `json_decode_time`: the clock fields of `d["time"]`, then
      `time(..., tzinfo=d["tzinfo"])`. */
  function DecodeTime(content: Entries): (r: Outcome<Value>)
    ensures !HasKey(content, "time") ==> r == Raises(KeyError)
    ensures HasKey(content, "time") && !Lookup(content, "time").value.Str? ==> r == Raises(AttributeError)
    ensures r.Returns? ==> AsTime(r.value).Some? && Lookup(content, "tzinfo") == Some(AsTime(r.value).value.tzinfo)
  {
    var text :- Subscript(content, "time");
    var s :- TextOf(text, AttributeError);
    var clock :- ReadClock(s);
    var tzinfo :- Subscript(content, "tzinfo");
    MakeTime(clock.0, clock.1, clock.2, clock.3, tzinfo)
  }

  /** The fields `json_encode_datetime` writes besides its tags: the
      datetime text and the zone's key (or `None` for a naive value). */
  function DateTimeFields(dt: DateTime): (r: Entries)
    requires ValidDateTime(dt)
    ensures |r| == 2 && r[0].0 == "datetime" && r[1].0 == "tzinfo"
  {
    [("datetime", Str(DateTimeText(dt))), ("tzinfo", if dt.zone.Some? then Str(dt.zone.value.key) else Null)]
  }

  /** `json_encode_datetime`: the fields, then the tags `"datetime"` /
      `"datetime"` the function sets itself. */
  function EncodeDateTime(dt: DateTime): (r: Entries)
    requires ValidDateTime(dt)
    ensures Lookup(r, ClassKey) == Some(Str("datetime")) && Lookup(r, ModuleKey) == Some(Str("datetime"))
    ensures Lookup(r, "tzinfo") == Some(if dt.zone.Some? then Str(dt.zone.value.key) else Null)
    ensures r[..2] == DateTimeFields(dt)
  {
    var r := DateTimeFields(dt) + [(ClassKey, Str("datetime")), (ModuleKey, Str("datetime"))];
    LemmaLookupFirst(r, 1, "tzinfo");
    LemmaLookupFirst(r, 2, ClassKey);
    LemmaLookupFirst(r, 3, ModuleKey);
    r
  }

  /** `json_decode_datetime`: `strptime` of `d["datetime"]`, then, when
      `d.get("tzinfo")` is truthy, the zone `zones` resolves it to; a zone
      that does not resolve leaves the datetime naive. `zones` stands for
      `ZoneInfo(key)` and its time-zone database. */
  function DecodeDateTime(content: Entries, zones: ZoneDb): (r: Outcome<Value>)
    ensures !HasKey(content, "datetime") ==> r == Raises(KeyError)
    ensures HasKey(content, "datetime") && !Lookup(content, "datetime").value.Str? ==> r == Raises(TypeError)
    ensures r.Returns? ==> AsDateTime(r.value).Some?
    ensures r.Returns? && AsDateTime(r.value).value.zone.Some? ==>
              Lookup(content, "tzinfo").Some? && zones(Lookup(content, "tzinfo").value) == AsDateTime(r.value).value.zone
    ensures HasKey(content, "datetime") && Lookup(content, "datetime").value.Str? ==>
              (r.Returns? <==> ParseDateTime(Lookup(content, "datetime").value.s).Some?)
    ensures r.Returns? ==> AsDateTime(r.value).value.(zone := None) == ParseDateTime(Lookup(content, "datetime").value.s).value
    ensures r.Returns? && (Lookup(content, "tzinfo").None? || !Truthy(Lookup(content, "tzinfo").value)
                           || zones(Lookup(content, "tzinfo").value).None?) ==>
              AsDateTime(r.value).value.zone.None?
  {
    var text :- Subscript(content, "datetime");
    var s :- TextOf(text, TypeError);
    match ParseDateTime(s)
    case None => Raises(ValueError)
    case Some(naive) =>
      var tzinfo := Lookup(content, "tzinfo");
      if tzinfo.Some? && Truthy(tzinfo.value) then
        match zones(tzinfo.value)
        case Some(z) => Returns(DateTimeValue(naive.(zone := Some(z))))
        case None => Returns(DateTimeValue(naive))
      else Returns(DateTimeValue(naive))
  }

  /** `json_encode_timezone`: the zone's key under `"zone"`, tagged
      `"timezone"`/`"zoneinfo"` by the function itself. */
  function EncodeTimezone(z: Zone): (r: Entries)
    ensures Lookup(r, "zone") == Some(Str(z.key))
    ensures Lookup(r, ClassKey) == Some(Str("timezone")) && Lookup(r, ModuleKey) == Some(Str("zoneinfo"))
  {
    var r := [("zone", Str(z.key)), (ClassKey, Str("timezone")), (ModuleKey, Str("zoneinfo"))];
    LemmaLookupFirst(r, 1, ClassKey);
    LemmaLookupFirst(r, 2, ModuleKey);
    r
  }

  /** `timedelta.total_seconds()`, exactly. */
  function TotalSeconds(td: Timedelta): real {
    (td.days * 86400 + td.seconds) as real + td.microseconds as real / 1000000.0
  }

  /** `json_encode_timedelta`: the duration as a number of seconds. */
  function EncodeTimedelta(td: Timedelta): (r: Entries)
    ensures r == [("seconds", Float(TotalSeconds(td)))]
  {
    [("seconds", Float(TotalSeconds(td)))]
  }

  // ---------------------------------------------------------------------
  // Round trips.

  lemma LemmaPow10Values()
    ensures Pow10(2) == 100 && Pow10(4) == 10000 && Pow10(6) == 1000000
  {
  }

  /** Splitting `a<sep>b<sep>c` for separator-free pieces gives the pieces. */
  lemma LemmaSplitThree(a: string, b: string, c: string, sep: char)
    requires sep !in a && sep !in b && sep !in c
    ensures Split(a + [sep] + b + [sep] + c, sep) == [a, b, c]
  {
    assert a + [sep] + b + [sep] + c == a + [sep] + (b + [sep] + c);
    LemmaSplitCons(a, sep, b + [sep] + c);
    LemmaSplitCons(b, sep, c);
    LemmaSplitNone(c, sep);
  }

  /** The date decoder inverts the date encoder on every valid date. */
  lemma LemmaDateRoundTrip(d: Date)
    requires ValidDate(d)
    ensures DecodeDate(EncodeDate(d)) == Returns(DateValue(d))
  {
    var y, m, dd := Fixed(d.year, 4), Fixed(d.month, 2), Fixed(d.day, 2);
    LemmaNoSepInDigits(y, '-');
    LemmaNoSepInDigits(m, '-');
    LemmaNoSepInDigits(dd, '-');
    LemmaSplitThree(y, m, dd, '-');
    LemmaPow10Values();
    LemmaParseFixed(d.year, 4);
    LemmaParseFixed(d.month, 2);
    LemmaParseFixed(d.day, 2);
  }

  /** How the time decoder cuts `HH:MM:SS.<fraction>`: three pieces on
      `:`, the last of them two pieces on `.`. */
  lemma LemmaClockPieces(hh: string, mm: string, ss: string, fraction: string)
    requires AllDigits(hh) && AllDigits(mm) && AllDigits(ss) && AllDigits(fraction)
    ensures Split(hh + ":" + mm + ":" + ss + "." + fraction, ':') == [hh, mm, ss + "." + fraction]
    ensures Split(ss + "." + fraction, '.') == [ss, fraction]
  {
    LemmaNoSepInDigits(hh, ':');
    LemmaNoSepInDigits(mm, ':');
    LemmaNoSepInDigits(ss, ':');
    LemmaNoSepInDigits(fraction, ':');
    LemmaNoSepInDigits(ss, '.');
    LemmaNoSepInDigits(fraction, '.');
    var tail := ss + "." + fraction;
    assert ':' !in tail;
    assert hh + ":" + mm + ":" + ss + "." + fraction == hh + [':'] + mm + [':'] + tail;
    LemmaSplitThree(hh, mm, tail, ':');
    assert tail == ss + ['.'] + fraction;
    LemmaSplitCons(ss, '.', fraction);
    LemmaSplitNone(fraction, '.');
  }

  /** Content holding `HH:MM:SS.<fraction>` and a `tzinfo` decodes to the
      time whose fields are the pieces read as whole numbers (so the
      fraction is a count of microseconds). */
  lemma LemmaDecodeClock(content: Entries, hh: string, mm: string, ss: string, fraction: string, tzinfo: Value)
    requires AllDigits(hh) && AllDigits(mm) && AllDigits(ss) && AllDigits(fraction)
    requires hh != [] && mm != [] && ss != [] && fraction != []
    requires |hh| <= MaxStrDigits && |mm| <= MaxStrDigits && |ss| <= MaxStrDigits && |fraction| <= MaxStrDigits
    requires ValidTime(Time(DigitsValue(hh), DigitsValue(mm), DigitsValue(ss), DigitsValue(fraction), tzinfo))
    requires Lookup(content, "time") == Some(Str(hh + ":" + mm + ":" + ss + "." + fraction))
    requires Lookup(content, "tzinfo") == Some(tzinfo)
    ensures DecodeTime(content) == Returns(TimeValue(Time(DigitsValue(hh), DigitsValue(mm), DigitsValue(ss), DigitsValue(fraction), tzinfo)))
  {
    LemmaReadClock(hh, mm, ss, fraction);
  }

  /** The clock fields of `HH:MM:SS.<fraction>` are the pieces read as
      whole numbers. */
  lemma LemmaReadClock(hh: string, mm: string, ss: string, fraction: string)
    requires AllDigits(hh) && AllDigits(mm) && AllDigits(ss) && AllDigits(fraction)
    requires hh != [] && mm != [] && ss != [] && fraction != []
    requires |hh| <= MaxStrDigits && |mm| <= MaxStrDigits && |ss| <= MaxStrDigits && |fraction| <= MaxStrDigits
    ensures ReadClock(hh + ":" + mm + ":" + ss + "." + fraction)
            == Returns((DigitsValue(hh), DigitsValue(mm), DigitsValue(ss), DigitsValue(fraction)))
  {
    var tail := ss + "." + fraction;
    var head := hh + ":" + mm + ":";
    assert head + ss + "." + fraction == head + tail;
    LemmaClockPieces(hh, mm, ss, fraction);
    LemmaReadSeconds(tail, ss, fraction);
    LemmaReadPieces(head + tail, hh, mm, tail, (DigitsValue(ss), DigitsValue(fraction)));
  }

  /** `ReadClock` on text whose pieces are known. */
  lemma LemmaReadPieces(text: string, hh: string, mm: string, tail: string, seconds: (int, int))
    requires AllDigits(hh) && AllDigits(mm) && hh != [] && mm != []
    requires |hh| <= MaxStrDigits && |mm| <= MaxStrDigits
    requires Split(text, ':') == [hh, mm, tail] && ReadSeconds(tail) == Returns(seconds)
    ensures ReadClock(text) == Returns((DigitsValue(hh), DigitsValue(mm), seconds.0, seconds.1))
  {
    LemmaIntOfDigits(hh);
    LemmaIntOfDigits(mm);
  }

  lemma LemmaReadSeconds(tail: string, ss: string, fraction: string)
    requires AllDigits(ss) && AllDigits(fraction) && ss != [] && fraction != []
    requires |ss| <= MaxStrDigits && |fraction| <= MaxStrDigits
    requires Split(tail, '.') == [ss, fraction]
    ensures ReadSeconds(tail) == Returns((DigitsValue(ss), DigitsValue(fraction)))
  {
    var secondParts := Split(tail, '.');
    assert secondParts[0] == ss && At(secondParts, 1) == Returns(fraction);
    LemmaIntOfDigits(ss);
    LemmaIntOfDigits(fraction);
  }

  /** `int` of a non-empty digit string is its value. */
  lemma LemmaIntOfDigits(s: string)
    requires AllDigits(s) && 1 <= |s| <= MaxStrDigits
    ensures IntOf(s) == Returns(DigitsValue(s))
  {
  }

  /** The time decoder inverts the time encoder on every valid time; the
      `tzinfo` object comes back as it went in. */
  lemma LemmaTimeRoundTrip(t: Time)
    requires ValidTime(t)
    ensures DecodeTime(EncodeTime(t)) == Returns(TimeValue(t))
  {
    LemmaLookupFirst(EncodeTime(t), 1, "tzinfo");
    LemmaPow10Values();
    LemmaFixedValue(t.microsecond, 6);
    LemmaFixedValue(t.hour, 2);
    LemmaFixedValue(t.minute, 2);
    LemmaFixedValue(t.second, 2);
    LemmaDecodeClock(EncodeTime(t), Fixed(t.hour, 2), Fixed(t.minute, 2), Fixed(t.second, 2), Fixed(t.microsecond, 6), t.tzinfo);
  }

  /** The fraction is read as a whole number of microseconds: a time
      written with a one-digit fraction, such as `14:30:45.5`, decodes to
      that many microseconds (5), not to tenths of a second. */
  lemma LemmaShortFractionIsMicroseconds(h: nat, m: nat, sec: nat, tenths: nat)
    requires ValidClock(h, m, sec, 0) && tenths < 10
    ensures DecodeTime([("time", Str(Fixed(h, 2) + ":" + Fixed(m, 2) + ":" + Fixed(sec, 2) + "." + Fixed(tenths, 1))), ("tzinfo", Null)])
            == Returns(TimeValue(Time(h, m, sec, tenths, Null)))
  {
    var content := [("time", Str(Fixed(h, 2) + ":" + Fixed(m, 2) + ":" + Fixed(sec, 2) + "." + Fixed(tenths, 1))), ("tzinfo", Null)];
    LemmaLookupFirst(content, 1, "tzinfo");
    LemmaPow10Values();
    LemmaFixedValue(tenths, 1);
    LemmaFixedValue(h, 2);
    LemmaFixedValue(m, 2);
    LemmaFixedValue(sec, 2);
    LemmaDecodeClock(content, Fixed(h, 2), Fixed(m, 2), Fixed(sec, 2), Fixed(tenths, 1), Null);
  }

  /** A time without a fractional part fails at `seconds_parts[1]`. */
  lemma LemmaMissingFractionFails(h: nat, m: nat, sec: nat)
    requires ValidClock(h, m, sec, 0)
    ensures DecodeTime([("time", Str(Fixed(h, 2) + ":" + Fixed(m, 2) + ":" + Fixed(sec, 2))), ("tzinfo", Null)]) == Raises(IndexError)
  {
    var a, b, c := Fixed(h, 2), Fixed(m, 2), Fixed(sec, 2);
    LemmaNoSepInDigits(a, ':');
    LemmaNoSepInDigits(b, ':');
    LemmaNoSepInDigits(c, ':');
    LemmaNoSepInDigits(c, '.');
    assert a + ":" + b + ":" + c == a + [':'] + b + [':'] + c;
    LemmaSplitThree(a, b, c, ':');
    LemmaSplitNone(c, '.');
    LemmaPow10Values();
    LemmaParseFixed(h, 2);
    LemmaParseFixed(m, 2);
    LemmaParseFixed(sec, 2);
  }

  /** The datetime text parses back to the naive datetime it was written from. */
  lemma LemmaParseDateTimeText(dt: DateTime)
    requires ValidDateTime(dt)
    ensures ParseDateTime(DateTimeText(dt)) == Some(dt.(zone := None))
  {
    var s := DateTimeText(dt);
    var y, mo, d := Fixed(dt.date.year, 4), Fixed(dt.date.month, 2), Fixed(dt.date.day, 2);
    var h, mi, sec, us := Fixed(dt.hour, 2), Fixed(dt.minute, 2), Fixed(dt.second, 2), Fixed(dt.microsecond, 6);
    assert s == y + "-" + mo + "-" + d + " " + h + ":" + mi + ":" + sec + "." + us;
    assert s[0..4] == y && s[5..7] == mo && s[8..10] == d;
    assert s[11..13] == h && s[14..16] == mi && s[17..19] == sec && s[20..26] == us;
    assert s[4] == '-' && s[7] == '-' && s[10] == ' ' && s[13] == ':' && s[16] == ':' && s[19] == '.';
    LemmaPow10Values();
    LemmaFixedValue(dt.date.year, 4);
    LemmaFixedValue(dt.date.month, 2);
    LemmaFixedValue(dt.date.day, 2);
    LemmaFixedValue(dt.hour, 2);
    LemmaFixedValue(dt.minute, 2);
    LemmaFixedValue(dt.second, 2);
    LemmaFixedValue(dt.microsecond, 6);
  }

  /** The datetime decoder inverts the datetime encoder, the zone included,
      whenever the zone database resolves the zone's key to that zone. */
  lemma LemmaDateTimeRoundTrip(dt: DateTime, zones: ZoneDb)
    requires ValidDateTime(dt)
    requires dt.zone.Some? ==> zones(Str(dt.zone.value.key)) == Some(dt.zone.value)
    ensures DecodeDateTime(EncodeDateTime(dt), zones) == Returns(DateTimeValue(dt))
    ensures DecodeDateTime(DateTimeFields(dt), zones) == Returns(DateTimeValue(dt))
  {
    LemmaDecodeCanonical(EncodeDateTime(dt), dt, zones);
    LemmaLookupFirst(DateTimeFields(dt), 1, "tzinfo");
    LemmaDecodeCanonical(DateTimeFields(dt), dt, zones);
  }

  /** Any content holding the canonical text of `dt` and its zone's key
      decodes to `dt`. */
  lemma LemmaDecodeCanonical(content: Entries, dt: DateTime, zones: ZoneDb)
    requires ValidDateTime(dt)
    requires dt.zone.Some? ==> zones(Str(dt.zone.value.key)) == Some(dt.zone.value)
    requires Lookup(content, "datetime") == Some(Str(DateTimeText(dt)))
    requires Lookup(content, "tzinfo") == Some(if dt.zone.Some? then Str(dt.zone.value.key) else Null)
    ensures DecodeDateTime(content, zones) == Returns(DateTimeValue(dt))
  {
    var tz := if dt.zone.Some? then Str(dt.zone.value.key) else Null;
    LemmaParseDateTimeText(dt);
    LemmaDecodeParsed(content, DateTimeText(dt), dt.(zone := None), tz, zones);
    if dt.zone.Some? {
      assert Truthy(tz) by { assert dt.zone.value.key != []; }
      assert dt.(zone := None).(zone := zones(tz)) == dt;
    }
  }

  /** The datetime decoder on content whose text parses: the parse, with the
      zone attached exactly when `tzinfo` is truthy and resolves. */
  lemma LemmaDecodeParsed(content: Entries, text: string, naive: DateTime, tz: Value, zones: ZoneDb)
    requires Lookup(content, "datetime") == Some(Str(text)) && ParseDateTime(text) == Some(naive)
    requires Lookup(content, "tzinfo") == Some(tz)
    ensures DecodeDateTime(content, zones)
            == if Truthy(tz) && zones(tz).Some?
               then Returns(DateTimeValue(naive.(zone := zones(tz))))
               else Returns(DateTimeValue(naive))
  {
    assert Subscript(content, "datetime") == Returns(Str(text));
    assert TextOf(Str(text), TypeError) == Returns(text);
  }
}

=== FILE: kajson_manager.dfy ===
/** `KajsonManager`: the process-wide holder of the class registry.

    The class attribute `_instance` is modelled as the state `Instance`,
    and every classmethod as a function of (and, for the mutating ones, to)
    that state. */
module KajsonManager {

  import opened Values
  import ClassRegistry

  datatype Manager = Manager(classRegistry: ClassRegistry.Registry)

  /** `KajsonManager._instance`: no manager, or the installed one. */
  type Instance = Option<Manager>

  datatype ManagerError = NotInitialized   // RuntimeError("KajsonManager is not initialized")

  /** `KajsonManager(class_registry)`: builds a manager holding the given
      registry, or a fresh empty one when none is given, and installs it
      whatever was installed before (the last construction wins). */
  function Construct(current: Instance, classRegistry: Option<ClassRegistry.Registry>): (r: Instance)
    ensures r.Some?
    ensures classRegistry.Some? ==> r.value.classRegistry == classRegistry.value
    ensures classRegistry.None? ==> r.value.classRegistry == map[]
    ensures GetClassRegistry(r).Ok?
  {
    Some(Manager(if classRegistry.Some? then classRegistry.value else map[]))
  }

  /** `KajsonManager.get_instance()`. */
  function GetInstance(current: Instance): (r: Result<Manager, ManagerError>)
    ensures current.None? <==> r == Err(NotInitialized)
    ensures current.Some? ==> r == Ok(current.value)
  {
    match current
    case None => Err(NotInitialized)
    case Some(m) => Ok(m)
  }

  /** `KajsonManager.teardown()`: forgets the installed manager. */
  function Teardown(current: Instance): (r: Instance)
    ensures GetInstance(r) == Err(NotInitialized)
    ensures GetClassRegistry(r) == Err(NotInitialized)
  {
    None
  }

  /** `KajsonManager.get_class_registry()`: the registry of the installed
      manager; fails like `get_instance` when there is none. */
  function GetClassRegistry(current: Instance): (r: Result<ClassRegistry.Registry, ManagerError>)
    ensures r.Ok? <==> GetInstance(current).Ok?
    ensures r.Ok? ==> r.value == GetInstance(current).value.classRegistry
  {
    match GetInstance(current)
    case Err(e) => Err(e)
    case Ok(m) => Ok(m.classRegistry)
  }

  /** Only the last construction matters: the state before it is irrelevant. */
  lemma LemmaLastConstructionWins(s: Instance, t: Instance, first: Option<ClassRegistry.Registry>, second: Option<ClassRegistry.Registry>)
    ensures Construct(Construct(s, first), second) == Construct(t, second)
  {
  }

  /** After a teardown, a new construction makes the registry available again. */
  lemma LemmaTeardownThenConstruct(s: Instance, reg: ClassRegistry.Registry)
    ensures GetClassRegistry(Construct(Teardown(s), Some(reg))) == Ok(reg)
  {
  }
}

=== FILE: round_trip.dfy ===
/** How the encoder and the decoder fit together: the tags `Default` adds
    are exactly the ones `universal_decoder` removes, so an object encoded
    through its attribute dict comes back as that dict (or as an instance
    holding it), and the built-in date and datetime codecs survive a full
    encode/decode through the two tables kajson.py installs. */
module RoundTrip {

  import opened Values
  import opened Dicts
  import opened Runtime
  import opened Codecs
  import JsonEncoder
  import JsonDecoder
  import Builtins

  /** Content the encoder tags itself: neither tag key is present. */
  predicate TagFree(fields: Entries) {
    !HasKey(fields, ClassKey) && !HasKey(fields, ModuleKey)
  }

  /** Tagging a tag-free dict appends the two tags, in order. */
  lemma LemmaTagAppends(fields: Entries, cls: ClassId)
    requires TagFree(fields)
    ensures JsonEncoder.Tag(fields, cls) == fields + [(ClassKey, Str(cls.name)), (ModuleKey, Str(cls.moduleName))]
  {
    LemmaHasKeyAppend(fields, ModuleKey, ClassKey, Str(cls.name));
  }

  /** Tag stripping undoes tag injection on tag-free content. */
  lemma LemmaStripTag(fields: Entries, cls: ClassId)
    requires TagFree(fields)
    ensures JsonDecoder.StripTags(JsonEncoder.Tag(fields, cls)) == fields
  {
    LemmaTagAppends(fields, cls);
    var classTag, moduleTag := (ClassKey, Str(cls.name)), (ModuleKey, Str(cls.moduleName));
    assert fields + [classTag, moduleTag] == fields + [classTag] + [moduleTag];
    LemmaWithoutAppend(fields + [classTag], [moduleTag], ClassKey);
    LemmaWithoutAppend(fields, [classTag], ClassKey);
    assert Without([classTag], ClassKey) == [];
    assert Without([moduleTag], ClassKey) == [moduleTag];
    assert Without(fields + [classTag, moduleTag], ClassKey) == fields + [moduleTag];
    LemmaWithoutAppend(fields, [moduleTag], ModuleKey);
    assert Without([moduleTag], ModuleKey) == [];
  }

  /** The decoder reads back the class name and module the encoder wrote. */
  lemma LemmaTagLookup(fields: Entries, cls: ClassId)
    requires TagFree(fields)
    ensures Lookup(JsonEncoder.Tag(fields, cls), ClassKey) == Some(Str(cls.name))
    ensures Lookup(JsonEncoder.Tag(fields, cls), ModuleKey) == Some(Str(cls.moduleName))
  {
  }

  /** `default` on an object whose registered function returns tag-free
      content is that content with the two tags appended. */
  lemma LemmaDefaultRegistered(e: JsonEncoder.Encoder, obj: Value, content: Entries)
    requires TagFree(content)
    requires ClassOf(obj) in e.encoders && e.encoders[ClassOf(obj)](obj) == Returns(content)
    ensures JsonEncoder.Default(e, obj)
            == Traced(Ok(content + [(ClassKey, Str(ClassOf(obj).name)), (ModuleKey, Str(ClassOf(obj).moduleName))]), [])
  {
    assert JsonEncoder.Content(e, obj) == Traced(Ok(content), []);
    LemmaTagAppends(content, ClassOf(obj));
  }

  /** The writer emits an object as the JSON object `default` returns for
      it, when that content is plain JSON and raised no warning. */
  lemma LemmaEncodeObject(e: JsonEncoder.Encoder, obj: Value, content: Entries, fuel: nat)
    requires obj.Obj? && fuel >= 1
    requires JsonEncoder.Default(e, obj) == Traced(Ok(content), [])
    requires forall i :: 0 <= i < |content| ==> IsJson(content[i].1)
    ensures JsonEncoder.EncodeTree(e, obj, fuel) == Traced(Ok(Dict(content)), [])
  {
    JsonEncoder.LemmaEncodeNativeEntries(e, content, fuel - 1);
    var written := JsonEncoder.EncodeEntries(e, content, fuel - 1);
    assert written.result == Ok(content) && written.warnings == [];
    assert [] + written.warnings == [];
  }

  /** The parser hands a tag-carrying JSON object whose members are plain
      untagged JSON straight to `universal_decoder`. */
  lemma LemmaDecodeNode(d: JsonDecoder.Decoder, node: Entries)
    requires forall i :: 0 <= i < |node| ==> Untagged(node[i].1)
    ensures JsonDecoder.DecodeTree(d, Dict(node)) == JsonDecoder.UniversalDecoder(d, node)
  {
    JsonDecoder.LemmaDecodeEntriesUntagged(d, node);
  }

  /** An object with neither encoder nor hook is encoded as its tagged
      attribute dict; when its class resolves back and has no decoder, no
      hook, is no model and refuses keyword construction, decoding gives a
      blank instance holding exactly those attributes, or the attribute
      dict itself when the class cannot be built blank. */
  lemma LemmaAttributeDictRoundTrip(e: JsonEncoder.Encoder, d: JsonDecoder.Decoder, cls: ClassId, fields: Entries)
    requires TagFree(fields)
    requires cls !in e.encoders && e.caps(cls).encodeHook.None?
    requires JsonDecoder.ResolveClass(d, Str(cls.name), Str(cls.moduleName)) == Ok(cls)
    requires cls !in d.decoders && d.world.caps(cls).decodeHook.None? && d.world.caps(cls).kind.Plain?
    requires d.world.caps(cls).construct(fields).Raises?
    ensures JsonEncoder.Default(e, Obj(cls, Attrs(fields))) == Traced(Ok(JsonEncoder.Tag(fields, cls)), [])
    ensures JsonDecoder.UniversalDecoder(d, JsonEncoder.Tag(fields, cls))
            == Traced(Ok(if d.world.caps(cls).blankInit then Obj(cls, Attrs(fields)) else Dict(fields)), [])
  {
    var obj := Obj(cls, Attrs(fields));
    assert JsonEncoder.FromAttributes(obj) == Ok(fields);
    assert JsonEncoder.FromEncodeHook(e, obj) == Traced(Ok(fields), []);
    assert JsonEncoder.Content(e, obj) == Traced(Ok(fields), []);
    var caps := d.world.caps(cls);
    assert JsonDecoder.FromHook(d, cls, fields) == Traced(Ok(JsonDecoder.FromConstructors(caps, cls, fields)), []);
    LemmaDecodeTagged(d, fields, cls);
  }

  /** On a tag-free dict tagged with a class that resolves back, the hook
      reconstructs that class from exactly the untagged dict. */
  lemma LemmaDecodeTagged(d: JsonDecoder.Decoder, fields: Entries, cls: ClassId)
    requires TagFree(fields)
    requires JsonDecoder.ResolveClass(d, Str(cls.name), Str(cls.moduleName)) == Ok(cls)
    ensures JsonDecoder.UniversalDecoder(d, JsonEncoder.Tag(fields, cls)) == JsonDecoder.Reconstruct(d, cls, fields)
  {
    LemmaTagLookup(fields, cls);
    LemmaStripTag(fields, cls);
  }

  /** Every member of a tagged plain-JSON dict is plain JSON without tags. */
  lemma LemmaTaggedMembers(fields: Entries, cls: ClassId)
    requires TagFree(fields)
    requires forall i :: 0 <= i < |fields| ==> IsJson(fields[i].1) && Untagged(fields[i].1)
    ensures forall i :: 0 <= i < |JsonEncoder.Tag(fields, cls)| ==>
              IsJson(JsonEncoder.Tag(fields, cls)[i].1) && Untagged(JsonEncoder.Tag(fields, cls)[i].1)
  {
    LemmaTagAppends(fields, cls);
  }

  /** The same round trip through the whole writer and the whole parser
      hook: an object whose attributes are plain JSON is written as one
      tagged JSON object and read back as above, with no warning. */
  lemma LemmaAttributeTreeRoundTrip(e: JsonEncoder.Encoder, d: JsonDecoder.Decoder, cls: ClassId, fields: Entries, fuel: nat)
    requires fuel >= 1
    requires TagFree(fields)
    requires forall i :: 0 <= i < |fields| ==> IsJson(fields[i].1) && Untagged(fields[i].1)
    requires cls !in e.encoders && e.caps(cls).encodeHook.None?
    requires JsonDecoder.ResolveClass(d, Str(cls.name), Str(cls.moduleName)) == Ok(cls)
    requires cls !in d.decoders && d.world.caps(cls).decodeHook.None? && d.world.caps(cls).kind.Plain?
    requires d.world.caps(cls).construct(fields).Raises?
    ensures JsonEncoder.EncodeTree(e, Obj(cls, Attrs(fields)), fuel) == Traced(Ok(Dict(JsonEncoder.Tag(fields, cls))), [])
    ensures JsonDecoder.DecodeTree(d, Dict(JsonEncoder.Tag(fields, cls)))
            == Traced(Ok(if d.world.caps(cls).blankInit then Obj(cls, Attrs(fields)) else Dict(fields)), [])
  {
    LemmaAttributeDictRoundTrip(e, d, cls, fields);
    LemmaTaggedMembers(fields, cls);
    LemmaEncodeObject(e, Obj(cls, Attrs(fields)), JsonEncoder.Tag(fields, cls), fuel);
    LemmaDecodeNode(d, JsonEncoder.Tag(fields, cls));
  }

  /** The tags of the date encoder's output, as the encoder adds them. */
  function DateNode(x: Date): Entries
    requires ValidDate(x)
  {
    EncodeDate(x) + [(ClassKey, Str("date")), (ModuleKey, Str("datetime"))]
  }

  /** `default` on a date uses the registered date encoder and tags its
      output with `date` / `datetime`. */
  lemma LemmaDefaultDate(e: JsonEncoder.Encoder, table: JsonEncoder.EncoderTable, x: Date)
    requires ValidDate(x)
    requires e.encoders == Builtins.InstallEncoders(table)
    ensures JsonEncoder.Default(e, DateValue(x)) == Traced(Ok(DateNode(x)), [])
  {
    assert TagFree(EncodeDate(x));
    assert ClassOf(DateValue(x)) == DateClass;
    assert Builtins.EncodeDateFn(DateValue(x)) == Returns(EncodeDate(x));
    LemmaDefaultRegistered(e, DateValue(x), EncodeDate(x));
  }

  /** A date written by the encoder is read back as the same date, provided
      the decoder resolves `datetime.date` (a loaded module, the class
      registry, or the import of `datetime`). */
  lemma LemmaDateRoundTrip(e: JsonEncoder.Encoder, table: JsonEncoder.EncoderTable,
                           d: JsonDecoder.Decoder, decoders: JsonDecoder.DecoderTable,
                           zones: ZoneDb, x: Date)
    requires ValidDate(x)
    requires e.encoders == Builtins.InstallEncoders(table)
    requires d.decoders == Builtins.InstallDecoders(decoders, zones)
    requires JsonDecoder.ResolveClass(d, Str("date"), Str("datetime")) == Ok(DateClass)
    ensures JsonEncoder.EncodeTree(e, DateValue(x), 1) == Traced(Ok(Dict(DateNode(x))), [])
    ensures JsonDecoder.DecodeTree(d, Dict(DateNode(x))) == Traced(Ok(DateValue(x)), [])
  {
    LemmaDefaultDate(e, table, x);
    LemmaDateNodeMembers(x);
    LemmaEncodeObject(e, DateValue(x), DateNode(x), 1);
    LemmaDecodeNode(d, DateNode(x));
    LemmaDateNodeDecodes(d, decoders, zones, x);
  }

  lemma LemmaDateNodeMembers(x: Date)
    requires ValidDate(x)
    ensures forall i :: 0 <= i < |DateNode(x)| ==> IsJson(DateNode(x)[i].1) && Untagged(DateNode(x)[i].1)
  {
    assert TagFree(EncodeDate(x));
    LemmaTaggedMembers(EncodeDate(x), DateClass);
    LemmaTagAppends(EncodeDate(x), DateClass);
  }

  /** `universal_decoder` on the tagged date node calls the registered date
      decoder on the untagged content, which rebuilds the date. */
  lemma LemmaDateNodeDecodes(d: JsonDecoder.Decoder, decoders: JsonDecoder.DecoderTable,
                             zones: ZoneDb, x: Date)
    requires ValidDate(x)
    requires d.decoders == Builtins.InstallDecoders(decoders, zones)
    requires JsonDecoder.ResolveClass(d, Str("date"), Str("datetime")) == Ok(DateClass)
    ensures JsonDecoder.UniversalDecoder(d, DateNode(x)) == Traced(Ok(DateValue(x)), [])
  {
    assert TagFree(EncodeDate(x));
    LemmaTagAppends(EncodeDate(x), DateClass);
    LemmaTagLookup(EncodeDate(x), DateClass);
    LemmaStripTag(EncodeDate(x), DateClass);
    Codecs.LemmaDateRoundTrip(x);
    assert d.decoders[DateClass](EncodeDate(x)) == Returns(DateValue(x));
    JsonDecoder.LemmaReconstructIsChain(d, DateClass, EncodeDate(x));
  }

  /** The tags of the time encoder's output, as the encoder adds them. */
  function TimeNode(t: Time): Entries
    requires ValidTime(t)
  {
    EncodeTime(t) + [(ClassKey, Str("time")), (ModuleKey, Str("datetime"))]
  }

  /** A time without a zone (its `tzinfo` is `None`) written by the encoder
      is read back as the same time. */
  lemma LemmaNaiveTimeRoundTrip(e: JsonEncoder.Encoder, table: JsonEncoder.EncoderTable,
                                d: JsonDecoder.Decoder, decoders: JsonDecoder.DecoderTable,
                                zones: ZoneDb, t: Time)
    requires ValidTime(t) && t.tzinfo == Null
    requires e.encoders == Builtins.InstallEncoders(table)
    requires d.decoders == Builtins.InstallDecoders(decoders, zones)
    requires JsonDecoder.ResolveClass(d, Str("time"), Str("datetime")) == Ok(TimeClass)
    ensures JsonEncoder.EncodeTree(e, TimeValue(t), 1) == Traced(Ok(Dict(TimeNode(t))), [])
    ensures JsonDecoder.DecodeTree(d, Dict(TimeNode(t))) == Traced(Ok(TimeValue(t)), [])
  {
    LemmaDefaultTime(e, table, t);
    LemmaTimeNodeMembers(t);
    LemmaEncodeObject(e, TimeValue(t), TimeNode(t), 1);
    LemmaDecodeNode(d, TimeNode(t));
    LemmaTimeNodeDecodes(d, decoders, zones, t);
  }

  lemma LemmaDefaultTime(e: JsonEncoder.Encoder, table: JsonEncoder.EncoderTable, t: Time)
    requires ValidTime(t)
    requires e.encoders == Builtins.InstallEncoders(table)
    ensures JsonEncoder.Default(e, TimeValue(t)) == Traced(Ok(TimeNode(t)), [])
  {
    assert TagFree(EncodeTime(t));
    assert ClassOf(TimeValue(t)) == TimeClass;
    assert Builtins.EncodeTimeFn(TimeValue(t)) == Returns(EncodeTime(t));
    LemmaDefaultRegistered(e, TimeValue(t), EncodeTime(t));
  }

  lemma LemmaTimeNodeMembers(t: Time)
    requires ValidTime(t) && t.tzinfo == Null
    ensures forall i :: 0 <= i < |TimeNode(t)| ==> IsJson(TimeNode(t)[i].1) && Untagged(TimeNode(t)[i].1)
  {
    assert TagFree(EncodeTime(t));
    LemmaTaggedMembers(EncodeTime(t), TimeClass);
    LemmaTagAppends(EncodeTime(t), TimeClass);
  }

  lemma LemmaTimeNodeDecodes(d: JsonDecoder.Decoder, decoders: JsonDecoder.DecoderTable,
                             zones: ZoneDb, t: Time)
    requires ValidTime(t)
    requires d.decoders == Builtins.InstallDecoders(decoders, zones)
    requires JsonDecoder.ResolveClass(d, Str("time"), Str("datetime")) == Ok(TimeClass)
    ensures JsonDecoder.UniversalDecoder(d, TimeNode(t)) == Traced(Ok(TimeValue(t)), [])
  {
    assert TagFree(EncodeTime(t));
    LemmaTagAppends(EncodeTime(t), TimeClass);
    LemmaTagLookup(EncodeTime(t), TimeClass);
    LemmaStripTag(EncodeTime(t), TimeClass);
    Codecs.LemmaTimeRoundTrip(t);
    assert d.decoders[TimeClass](EncodeTime(t)) == Returns(TimeValue(t));
    JsonDecoder.LemmaReconstructIsChain(d, TimeClass, EncodeTime(t));
  }

  /** With the manager installed and no `date` entry in its registry, the
      decoder finds `datetime.date` by importing `datetime`: its own module
      does not import `datetime`, so the registry is asked first. */
  lemma LemmaResolveDateByImport(d: JsonDecoder.Decoder)
    requires "datetime" !in d.world.loaded
    requires d.manager.Some? && "date" !in d.manager.value.classRegistry
    requires "datetime" in d.world.importable && "date" in d.world.importable["datetime"]
    requires d.world.importable["datetime"]["date"] == DateClass
    ensures JsonDecoder.ResolveClass(d, Str("date"), Str("datetime")) == Ok(DateClass)
  {
  }

  /** Without an installed manager, even a standard-library class that the
      decoder's module has not imported cannot be resolved. */
  lemma LemmaResolveNeedsManager(d: JsonDecoder.Decoder, className: string, moduleName: string)
    requires moduleName !in d.world.loaded && d.manager.None?
    ensures JsonDecoder.ResolveClass(d, Str(className), Str(moduleName)) == Err(JsonDecoder.ManagerNotInitialized)
  {
  }

  /** `default` on a datetime keeps the tags its encoder wrote. */
  lemma LemmaDefaultDateTime(e: JsonEncoder.Encoder, table: JsonEncoder.EncoderTable, dt: DateTime)
    requires ValidDateTime(dt)
    requires e.encoders == Builtins.InstallEncoders(table)
    ensures JsonEncoder.Default(e, DateTimeValue(dt)) == Traced(Ok(EncodeDateTime(dt)), [])
  {
    assert ClassOf(DateTimeValue(dt)) == DateTimeClass;
    assert Builtins.EncodeDateTimeFn(DateTimeValue(dt)) == Returns(EncodeDateTime(dt));
    var c := JsonEncoder.Content(e, DateTimeValue(dt));
    assert c == Traced(Ok(EncodeDateTime(dt)), []);
    assert HasKey(EncodeDateTime(dt), ClassKey) && HasKey(EncodeDateTime(dt), ModuleKey);
  }

  /** A datetime, its zone included, survives `default` and reconstruction
      whenever `datetime.datetime` resolves and the zone database resolves
      the zone's key. */
  lemma LemmaDateTimeRoundTrip(e: JsonEncoder.Encoder, table: JsonEncoder.EncoderTable,
                               d: JsonDecoder.Decoder, decoders: JsonDecoder.DecoderTable,
                               zones: ZoneDb, dt: DateTime)
    requires ValidDateTime(dt)
    requires dt.zone.Some? ==> zones(Str(dt.zone.value.key)) == Some(dt.zone.value)
    requires e.encoders == Builtins.InstallEncoders(table)
    requires d.decoders == Builtins.InstallDecoders(decoders, zones)
    requires JsonDecoder.ResolveClass(d, Str("datetime"), Str("datetime")) == Ok(DateTimeClass)
    ensures JsonEncoder.EncodeTree(e, DateTimeValue(dt), 1) == Traced(Ok(Dict(EncodeDateTime(dt))), [])
    ensures JsonDecoder.DecodeTree(d, Dict(EncodeDateTime(dt))) == Traced(Ok(DateTimeValue(dt)), [])
  {
    LemmaDefaultDateTime(e, table, dt);
    LemmaDateTimeNodeMembers(dt);
    LemmaEncodeObject(e, DateTimeValue(dt), EncodeDateTime(dt), 1);
    LemmaDecodeNode(d, EncodeDateTime(dt));
    LemmaDateTimeNodeDecodes(d, decoders, zones, dt);
  }

  /** The datetime encoder's output is its fields with the two tags appended. */
  lemma LemmaDateTimeIsTagged(dt: DateTime)
    requires ValidDateTime(dt)
    ensures TagFree(DateTimeFields(dt))
    ensures EncodeDateTime(dt) == JsonEncoder.Tag(DateTimeFields(dt), DateTimeClass)
  {
    LemmaNoTagsIn(DateTimeFields(dt));
    LemmaTagAppends(DateTimeFields(dt), DateTimeClass);
  }

  lemma LemmaNoTagsIn(fields: Entries)
    requires |fields| == 2 && fields[0].0 == "datetime" && fields[1].0 == "tzinfo"
    ensures TagFree(fields)
  {
  }

  lemma LemmaDateTimeNodeMembers(dt: DateTime)
    requires ValidDateTime(dt)
    ensures forall i :: 0 <= i < |EncodeDateTime(dt)| ==> IsJson(EncodeDateTime(dt)[i].1) && Untagged(EncodeDateTime(dt)[i].1)
  {
    LemmaDateTimeIsTagged(dt);
    LemmaTaggedMembers(DateTimeFields(dt), DateTimeClass);
  }

  /** The hook on a written datetime node gives the datetime, zone included. */
  lemma LemmaDateTimeNodeDecodes(d: JsonDecoder.Decoder, decoders: JsonDecoder.DecoderTable,
                                 zones: ZoneDb, dt: DateTime)
    requires ValidDateTime(dt)
    requires dt.zone.Some? ==> zones(Str(dt.zone.value.key)) == Some(dt.zone.value)
    requires d.decoders == Builtins.InstallDecoders(decoders, zones)
    requires JsonDecoder.ResolveClass(d, Str("datetime"), Str("datetime")) == Ok(DateTimeClass)
    ensures JsonDecoder.UniversalDecoder(d, EncodeDateTime(dt)) == Traced(Ok(DateTimeValue(dt)), [])
  {
    var fields := DateTimeFields(dt);
    LemmaDateTimeIsTagged(dt);
    LemmaTagLookup(fields, DateTimeClass);
    LemmaStripTag(fields, DateTimeClass);
    Codecs.LemmaDateTimeRoundTrip(dt, zones);
    assert d.decoders[DateTimeClass](fields) == Returns(DateTimeValue(dt));
  }

  /** The timezone encoder's own tags do not name the `ZoneInfo` class.
      `zoneinfo` is not among the decoder module's globals, so when called on
      a zone its output sends the decoder to the registry and then to
      `import_module("zoneinfo")`, and `getattr(zoneinfo, "timezone")`
      fails. */
  lemma LemmaTimezoneTagsDoNotResolve(d: JsonDecoder.Decoder, z: Zone)
    requires "zoneinfo" !in d.world.loaded
    requires d.manager.Some? && "timezone" !in d.manager.value.classRegistry
    requires "zoneinfo" in d.world.importable && "timezone" !in d.world.importable["zoneinfo"]
    ensures JsonDecoder.UniversalDecoder(d, EncodeTimezone(z)).result
            == Err(JsonDecoder.ClassNotInModule("zoneinfo", Str("timezone")))
  {
  }

  /** A class with both hooks and no registered functions: `default` tags
      what `__json_encode__` returns, and when `__json_decode__` inverts that
      content the decoder gives the object back, with no warning, whatever
      the fallback flags say. */
  lemma LemmaHookRoundTrip(e: JsonEncoder.Encoder, d: JsonDecoder.Decoder, obj: Value, content: Entries)
    requires TagFree(content)
    requires ClassOf(obj) !in e.encoders && e.caps(ClassOf(obj)).encodeHook.Some?
    requires e.caps(ClassOf(obj)).encodeHook.value(obj) == Returns(content)
    requires JsonDecoder.ResolveClass(d, Str(ClassOf(obj).name), Str(ClassOf(obj).moduleName)) == Ok(ClassOf(obj))
    requires ClassOf(obj) !in d.decoders && d.world.caps(ClassOf(obj)).decodeHook.Some?
    requires d.world.caps(ClassOf(obj)).decodeHook.value(content) == Returns(obj)
    ensures JsonEncoder.Default(e, obj) == Traced(Ok(JsonEncoder.Tag(content, ClassOf(obj))), [])
    ensures JsonDecoder.UniversalDecoder(d, JsonEncoder.Tag(content, ClassOf(obj))) == Traced(Ok(obj), [])
  {
    LemmaTagLookup(content, ClassOf(obj));
    LemmaStripTag(content, ClassOf(obj));
  }
}

=== FILE: runtime.dfy ===
/** What the codec sees of the Python runtime around it.

    Everything foreign -- registered functions, `__json_encode__` /
    `__json_decode__` hooks, pydantic construction and validation, plain
    constructors, module import -- is an oracle: a total function from its
    input to an `Outcome`. The codec's own logic is then a pure function of
    these oracles. */
module Runtime {

  import opened Values

  /** The three class shapes the decoder distinguishes. */
  datatype ModelKind =
    | Plain       // any class that is not a pydantic model
    | RootModel   // a subclass of pydantic's RootModel
    | BaseModel   // any other subclass of pydantic's BaseModel

  /** The foreign capabilities of one class. */
  datatype ClassCaps = ClassCaps(
    kind: ModelKind,
    /** `cls.__json_decode__`, or `None` when the attribute does not exist. */
    decodeHook: Option<seq<(string, Value)> -> Outcome<Value>>,
    /** `obj.__json_encode__`, or `None` when the attribute does not exist. */
    encodeHook: Option<Value -> Outcome<seq<(string, Value)>>>,
    /** `cls(**d)`. */
    construct: seq<(string, Value)> -> Outcome<Value>,
    /** `cls.model_validate(d)` (pydantic models only). */
    validate: seq<(string, Value)> -> Outcome<Value>,
    /** `cls.model_validate(obj=o)`: `None` when it passes, else what it raises. */
    revalidate: Value -> Option<ExcKind>,
    /** `cls()` succeeds and the instance accepts a replacement `__dict__`. */
    blankInit: bool
  )

  /** A module's namespace: the classes `getattr(module, name)` finds. */
  type Namespace = map<string, ClassId>

  /** The runtime's modules and classes. */
  datatype World = World(
    /** Modules `_get_imported_modules()` reports (the decoder module's own globals). */
    loaded: map<string, Namespace>,
    /** Modules `importlib.import_module` can load; any other name raises. */
    importable: map<string, Namespace>,
    caps: ClassId -> ClassCaps
  )

  /** A warning emitted by `warnings.warn` when the fallback flag turns a
      failing strategy into "try something else". */
  datatype Warning =
    | EncodingFunctionFallback(cls: ClassId)
    | EncodeHookFallback(cls: ClassId)
    | DecodingFunctionFallback(cls: ClassId)
    | DecodeHookFallback(cls: ClassId)

  /** A result together with the warnings emitted while computing it. */
  datatype Traced<+T, +E> = Traced(result: Result<T, E>, warnings: seq<Warning>)

  /** Prefix a warning to a traced computation. */
  function Warn<T, E>(w: Warning, t: Traced<T, E>): Traced<T, E> {
    Traced(t.result, [w] + t.warnings)
  }

  /** The first argument of `register`: a class, or something that is not one. */
  datatype TypeArg = AType(cls: ClassId) | NotAType

  /** The second argument of `register`: a callable, or something that is not one. */
  datatype FnArg<+F> = Callable(fn: F) | NotCallable

  /** Why `register` refused its arguments (both raise `ValueError`). */
  datatype RegisterError = ExpectedType | ExpectedFunction

  /** `register(obj_type, fn)` on a per-type function table: the type is
      checked first, then the function; a valid pair overwrites any earlier
      entry for exactly that class and leaves every other entry alone. */
  function RegisterIn<F>(table: map<ClassId, F>, objType: TypeArg, fn: FnArg<F>): (r: Result<map<ClassId, F>, RegisterError>)
    ensures objType.NotAType? <==> r == Err(ExpectedType)
    ensures objType.AType? && fn.NotCallable? <==> r == Err(ExpectedFunction)
    ensures r.Ok? ==> r.value.Keys == table.Keys + {objType.cls}
    ensures r.Ok? ==> r.value[objType.cls] == fn.fn
    ensures r.Ok? ==> forall c :: c in table && c != objType.cls ==> r.value[c] == table[c]
  {
    match objType
    case NotAType => Err(ExpectedType)
    case AType(cls) =>
      match fn
      case NotCallable => Err(ExpectedFunction)
      case Callable(f) => Ok(table[cls := f])
  }
}

=== FILE: text.dfy ===
/** The string operations the date/time codecs rely on: fixed-width
    decimal formatting (`%02d`, `%04d`, `%06d` and the `strftime` fields),
    `int(s)` on decimal text, and `str.split(sep)` with a one-character
    separator. */
module Text {

  import opened Values

  function Pow10(w: nat): (r: nat)
    ensures r >= 1
  {
    if w == 0 then 1 else 10 * Pow10(w - 1)
  }

  predicate IsDigit(c: char) {
    '0' <= c <= '9'
  }

  predicate AllDigits(s: string) {
    forall i :: 0 <= i < |s| ==> IsDigit(s[i])
  }

  function DigitChar(d: nat): (c: char)
    requires d < 10
    ensures IsDigit(c)
  {
    ['0', '1', '2', '3', '4', '5', '6', '7', '8', '9'][d]
  }

  function DigitValue(c: char): (d: nat)
    requires IsDigit(c)
    ensures d < 10
  {
    (c as int - '0' as int) as nat
  }

  lemma LemmaDigitValueChar(d: nat)
    requires d < 10
    ensures DigitValue(DigitChar(d)) == d
  {
  }

  /** The last `w` decimal digits of `n`, zero-padded on the left. */
  function Fixed(n: nat, w: nat): (r: string)
    ensures |r| == w
    ensures AllDigits(r)
  {
    if w == 0 then "" else Fixed(n / 10, w - 1) + [DigitChar(n % 10)]
  }

  /** The value of a string of decimal digits (leading zeros allowed). */
  function DigitsValue(s: string): (r: nat)
    requires AllDigits(s)
    ensures r < Pow10(|s|)
  {
    if s == [] then 0 else 10 * DigitsValue(s[..|s| - 1]) + DigitValue(s[|s| - 1])
  }

  /** `sys.get_int_max_str_digits()` at its default: `int` refuses decimal
      text with more digits than this (CPython 3.11 and later). */
  const MaxStrDigits: nat := 4300

  /** `int(s)`: an optional sign followed by one to `MaxStrDigits` decimal
      digits; anything else is `None` (Python raises ValueError). */
  function ParseInt(s: string): (r: Option<int>)
    ensures r.Some? <==> (AllDigits(s) && 1 <= |s| <= MaxStrDigits)
                         || (2 <= |s| <= MaxStrDigits + 1 && s[0] in "+-" && AllDigits(s[1..]))
    ensures AllDigits(s) && 1 <= |s| <= MaxStrDigits ==> r == Some(DigitsValue(s))
    ensures 2 <= |s| <= MaxStrDigits + 1 && s[0] in "+-" && AllDigits(s[1..]) ==>
              r == Some(if s[0] == '-' then -(DigitsValue(s[1..]) as int) else DigitsValue(s[1..]) as int)
    ensures r.Some? && s[0] == '-' ==> r.value <= 0
    ensures r.Some? && s[0] != '-' ==> r.value >= 0
  {
    if s == [] then None
    else if s[0] == '+' || s[0] == '-' then
      if 2 <= |s| <= MaxStrDigits + 1 && AllDigits(s[1..]) then
        var magnitude: int := DigitsValue(s[1..]);
        Some(if s[0] == '-' then -magnitude else magnitude)
      else None
    else if AllDigits(s) && |s| <= MaxStrDigits then Some(DigitsValue(s))
    else None
  }

  /** Digit text past the limit is refused, however small its value. */
  lemma LemmaTooManyDigits(s: string)
    requires AllDigits(s) && |s| > MaxStrDigits
    ensures ParseInt(s).None?
    ensures ParseInt("+" + s).None? && ParseInt("-" + s).None?
  {
    assert ("+" + s)[1..] == s && ("-" + s)[1..] == s;
  }

  /** Reading back a fixed-width field gives the number when it fits. */
  lemma {:induction false} LemmaFixedValue(n: nat, w: nat)
    requires n < Pow10(w)
    ensures DigitsValue(Fixed(n, w)) == n
  {
    if w > 0 {
      var s := Fixed(n, w);
      assert s[..|s| - 1] == Fixed(n / 10, w - 1);
      LemmaFixedValue(n / 10, w - 1);
      LemmaDigitValueChar(n % 10);
    }
  }

  /** `int(f"{n:0{w}d}") == n` for a non-negative `n` of at most `w` digits. */
  lemma LemmaParseFixed(n: nat, w: nat)
    requires 1 <= w <= MaxStrDigits && n < Pow10(w)
    ensures ParseInt(Fixed(n, w)) == Some(n)
  {
    LemmaFixedValue(n, w);
  }

  /** `s.split(sep)`: the pieces between occurrences of `sep`, in order;
      there is always one more piece than there are separators. */
  function Split(s: string, sep: char): (r: seq<string>)
    ensures |r| >= 1
    ensures forall i :: 0 <= i < |r| ==> sep !in r[i]
  {
    if s == [] then [""]
    else
      var rest := Split(s[1..], sep);
      if s[0] == sep then [""] + rest
      else [[s[0]] + rest[0]] + rest[1..]
  }

  /** `sep.join(parts)`. */
  function Join(parts: seq<string>, sep: char): string
    requires |parts| >= 1
  {
    if |parts| == 1 then parts[0] else parts[0] + [sep] + Join(parts[1..], sep)
  }

  /** Splitting loses nothing: joining the pieces gives the string back. */
  lemma {:induction false} LemmaJoinSplit(s: string, sep: char)
    ensures Join(Split(s, sep), sep) == s
  {
    if s != [] {
      var rest := Split(s[1..], sep);
      LemmaJoinSplit(s[1..], sep);
      if s[0] != sep {
        if |rest| == 1 {
        } else {
          assert rest == [rest[0]] + rest[1..];
        }
      }
    }
  }

  /** A piece without the separator, then the separator, then the rest: the
      piece comes first and the rest is split on its own. */
  lemma {:induction false} LemmaSplitCons(a: string, sep: char, b: string)
    requires sep !in a
    ensures Split(a + [sep] + b, sep) == [a] + Split(b, sep)
  {
    if a == [] {
      assert a + [sep] + b == [sep] + b;
      assert ([sep] + b)[1..] == b;
    } else {
      assert (a + [sep] + b)[1..] == a[1..] + [sep] + b;
      LemmaSplitCons(a[1..], sep, b);
      assert [a[0]] + a[1..] == a;
    }
  }

  /** A string without the separator is a single piece. */
  lemma {:induction false} LemmaSplitNone(a: string, sep: char)
    requires sep !in a
    ensures Split(a, sep) == [a]
  {
    if a != [] {
      LemmaSplitNone(a[1..], sep);
      assert [a[0]] + a[1..] == a;
    }
  }

  /** Digit strings never contain a separator character. */
  lemma LemmaNoSepInDigits(s: string, sep: char)
    requires AllDigits(s) && !IsDigit(sep)
    ensures sep !in s
  {
  }
}

=== FILE: values.dfy ===
/** The Python values the codec moves between objects and JSON trees.

    A Python dict (and a JSON object) is an insertion-ordered list of
    string-keyed entries; a JSON tree is a `Value` without `Obj` nodes.
    Objects carry their class and either a field dict (`__dict__`) or
    sealed slot data (C-level types such as `datetime.date`, or classes
    declaring `__slots__`, which have no `__dict__`). */
module Values {

  datatype Option<+T> = None | Some(value: T)

  datatype Result<+T, +E> = Ok(value: T) | Err(error: E)

  /** Kinds of Python exceptions the codec distinguishes. */
  datatype ExcKind =
    | AttributeError
    | KeyError
    | IndexError
    | TypeError
    | ValueError
    | OverflowError     // a Python int too large for a C int
    | ValidationError   // pydantic's ValidationError
    | OtherError

  /** The outcome of calling foreign code: it returns a value or raises. */
  datatype Outcome<+T> = Returns(value: T) | Raises(exc: ExcKind) {
    predicate IsFailure() { Raises? }

    function PropagateFailure<U>(): Outcome<U>
      requires Raises?
    {
      Raises(exc)
    }

    function Extract(): T
      requires Returns?
    {
      value
    }
  }

  /** A Python class, identified by its `__name__` and its `__module__`. */
  datatype ClassId = ClassId(name: string, moduleName: string)

  datatype Value =
    | Null
    | Bool(b: bool)
    | Int(i: int)
    | Float(r: real)
    | Str(s: string)
    | List(items: seq<Value>)
    | Dict(entries: seq<(string, Value)>)
    | Obj(cls: ClassId, state: ObjState)

  datatype ObjState =
    | Attrs(fields: seq<(string, Value)>)   // an instance whose `__dict__` is `fields`
    | Sealed(slots: seq<Value>)             // an instance without `__dict__`

  /** The reserved keys of a tagged node (the on-wire type tags). */
  const ClassKey: string := "__class__"
  const ModuleKey: string := "__module__"

  /** A JSON tree: no object nodes anywhere (what `json.loads` builds before hooks). */
  predicate IsJson(v: Value) {
    match v
    case Obj(_, _) => false
    case List(items) => forall i :: 0 <= i < |items| ==> IsJson(items[i])
    case Dict(entries) => forall i :: 0 <= i < |entries| ==> IsJson(entries[i].1)
    case _ => true
  }

  /** A JSON tree none of whose objects carries the `"__class__"` tag. */
  predicate Untagged(v: Value) {
    match v
    case Obj(_, _) => false
    case List(items) => forall i :: 0 <= i < |items| ==> Untagged(items[i])
    case Dict(entries) =>
      && (forall i :: 0 <= i < |entries| ==> entries[i].0 != ClassKey)
      && (forall i :: 0 <= i < |entries| ==> Untagged(entries[i].1))
    case _ => true
  }

  /** Python truthiness (`bool(v)`); instances are truthy by default. */
  predicate Truthy(v: Value) {
    match v
    case Null => false
    case Bool(b) => b
    case Int(i) => i != 0
    case Float(r) => r != 0.0
    case Str(s) => s != []
    case List(items) => items != []
    case Dict(entries) => entries != []
    case Obj(_, _) => true
  }

  /** Builtin classes of the natively representable values. */
  const NoneClass := ClassId("NoneType", "builtins")
  const BoolClass := ClassId("bool", "builtins")
  const IntClass := ClassId("int", "builtins")
  const FloatClass := ClassId("float", "builtins")
  const StrClass := ClassId("str", "builtins")
  const ListClass := ClassId("list", "builtins")
  const DictClass := ClassId("dict", "builtins")

  /** `type(v)`. */
  function ClassOf(v: Value): ClassId {
    match v
    case Null => NoneClass
    case Bool(_) => BoolClass
    case Int(_) => IntClass
    case Float(_) => FloatClass
    case Str(_) => StrClass
    case List(_) => ListClass
    case Dict(_) => DictClass
    case Obj(c, _) => c
  }
}
